=== FILE: README.md ===
# NBP currency-rate collector: a Dafny model of its table logic

`main.py` downloads 90 days of mid rates for EUR/PLN, USD/PLN and CHF/PLN
from the National Bank of Poland. It then:

- joins the three series on their `Date` column;
- adds two cross rates, EUR/USD and CHF/USD;
- lets the user choose columns to save;
- once a day, merges the freshly fetched table into a CSV file, keeping one
  row per date.

This project models that logic as pure functions over immutable data and
proves what it promises. The data model:

- A row is a date string plus a map from column name to a `real` rate.
- A column missing from a row's map is an empty (NaN) cell.
- A table is its column list (the columns after `Date`) plus its rows, in order.

Modules:

- `Seqs`: order-preserving filters, the list comprehensions of the source.
- `Tables`: rows, tables, the `Date` column, and a "last row with this date" lookup.
- `Pairs`: `str.strip`, `split(',')` and `validate_currency_pairs`.
- `Dataset`: the per-currency tables, the pandas inner merge on `Date`, the
  cross rates and `fetch_currency_data`.
- `Store`: `append_new_data_to_csv`, meaning concatenation followed by
  `drop_duplicates(subset='Date', keep='last')`.
- `Selection`: the column filter of `select_and_save_data`.
- `Pipeline`: `scheduled_task`, the fetch followed by the merge.

Outside effects become parameters:

- The response for each currency is `Option<seq<RatePoint>>`. `None` stands for
  any `requests` exception, and the fetch then returns `None`.
- The existing CSV file is an `Option<Table>`. `None` means the file does not exist.
- The user's typed line is a `string`.

Behaviour of the code a reader may not expect, which the model keeps:

- A join with no common date raises no error. When the loop's final table
  has no rows, the fetch returns that empty table with no cross-rate columns.
- The fetch loop replaces an EMPTY accumulated table by the next series
  instead of joining with it (`data = temp_df if data.empty else ...`,
  main.py:37). So a merge that matches no date restarts the join at the next
  series. The final table is then the join of the series from the last
  restart on and lacks the earlier columns. When it still has rows,
  `data['EUR/PLN']` raises a `KeyError` (main.py:53). The model returns
  `MissingColumn` there.
- Nothing is sorted. The join keeps the first series' order. The merge puts
  the surviving stored rows first, in their stored order, and then the new
  rows in theirs.
- With no file, the fetched table is written as it is (main.py:131); only the
  next merge removes a repeated date (main.py:129). So when a series repeats a
  date, merging the same table a second time changes the file.
  `Store.FirstMergeIdempotent` states when this happens. The idempotence and
  "each date once" rows below hold when no series repeats a date.
- A left date that repeats gives its merged rows in left-row order: each left
  row with all its matches, in right order. This is the inner-merge order of
  pandas 2.2 and later; older pandas groups equal keys together.
- Division by a zero USD/PLN rate is not defined (pandas gives inf or NaN). The
  model requires a non-zero USD/PLN rate instead.

## Model

| member | source | states |
|---|---|---|
| Pairs.Strip | main.py:77 | `strip()` yields a string with no white space at either end, obtained from the input by removing only white-space margins (Python's `isspace` set) |
| Pairs.StripExact | main.py:77 | stripping white space around an already stripped middle gives exactly that middle, so the decomposition is unique |
| Pairs.StripIdempotent | main.py:77 | stripping a stripped pair changes nothing |
| Pairs.ValidateCurrencyPairs | main.py:69-81 | a pair is accepted iff its stripped form is among the available pairs. It is rejected (named in the warning) iff its stripped form is not. Each stripped input lands in exactly one list (multiset partition), so the two lengths add up to the input length |
| Pairs.ValidateKeepsDuplicates | main.py:77 | an available pair typed n times is accepted n times; an unavailable one never |
| Pairs.ValidatePreservesOrder | main.py:77-78 | both lists keep input order: validating `a + b` gives a's results followed by b's |
| Pairs.ValidateIdempotent | main.py:77 | validating the accepted list again accepts all of it, unchanged, and rejects nothing |
| Pairs.SplitComma | main.py:91 | `split(',')` yields at least one piece and no piece contains a comma |
| Pairs.SplitJoin | main.py:91 | joining the pieces of `split(',')` with commas restores the typed line |
| Pairs.JoinSplit | main.py:91 | splitting a comma-join of comma-free pieces gives those pieces back |
| Tables.Latest | main.py:129 | the last row carrying a date exists iff the date occurs, and it is a row with that date |
| Tables.LatestAppend | main.py:129 | looking a date up in `a + b` finds b's row when b has the date, else a's row |
| Dataset.Quote | main.py:33-34 | a series has a quote for a date iff the date is among its effective dates |
| Dataset.SeriesTable | main.py:33-36 | one currency's table has exactly that currency's column, its dates in response order, and each row's cell equal to that day's mid |
| Dataset.JoinRowsDates | main.py:37 | the pandas inner merge on `Date` keeps the left dates found on the right, in left order, once each when right dates are unique |
| Dataset.JoinRowOrigin | main.py:37 | every merged row combines one left row and one right row that have the merged row's date |
| Dataset.Join | main.py:37 | the merge's columns are left's then right's. It keeps complete rows complete and unique dates unique, and its dates are the left dates present on the right |
| Dataset.JoinAll | main.py:24-37 | the fetch loop's table holds only requested columns, with a cell in each of them on every row. Which columns and dates it ends with, restarts included, is stated by `JoinAllRestart`; its cells by `JoinAllSourced` |
| Dataset.JoinAllRestart | main.py:24-37 | with `j` the loop's last restart (0 when the accumulated table was never empty): the table after the first `j` series is empty, and no later one is. The final columns are the pairs from `j` on, in request order. When no series repeats a date, the final dates are exactly the dates common to the series from `j` on, in the order of series `j` |
| Dataset.JoinRowsHasDate | main.py:37 | a date carried by both sides survives the inner merge, even when either side repeats it |
| Dataset.JoinAllCommon | main.py:22-37 | a date quoted in every series keeps each intermediate table non-empty. So the loop never restarts, the date is in the final table, and all requested columns are there in request order |
| Dataset.NoCommonDate | main.py:22-54 | a loop that ends with no rows, or without all three currency columns, implies that no date is quoted for all three currencies |
| Dataset.CommonDatesSnoc | main.py:24-37 | filtering the dates common to some series by the dates of one more series gives the dates common to all of them |
| Dataset.JoinAllDates | main.py:22-37 | when no series repeats a date, and unless the loop restarted on an empty intermediate table, the loop's table has exactly the dates quoted in every series, in the first series' order, and one column per currency in request order |
| Dataset.JoinAllSourced | main.py:22-37 | when no series repeats a date, every cell of the loop's table is the quote of that column's currency for that row's date, and dates are unique |
| Dataset.JoinAllNonZero | main.py:22-37 | a currency whose every quote is non-zero has a non-zero cell in every row of the joined table |
| Dataset.AddCrossRates | main.py:52-54 | the cross-rate step appends EUR/USD and CHF/USD to the columns. It sets each row's EUR/USD to EUR/PLN divided by USD/PLN and CHF/USD to CHF/PLN divided by USD/PLN, keeping every other cell and the date |
| Dataset.CrossRatesKeep | main.py:52-54 | adding cross rates leaves the dates and the three quoted currencies' cells unchanged |
| Dataset.FetchCurrencyData | main.py:12-55 | the fetch fails (returns `None`) iff some request fails. An empty result gets no cross-rate columns. A non-empty result has columns EUR/PLN, USD/PLN, CHF/PLN, EUR/USD, CHF/USD and correct cross rates on every row. The `KeyError` or an empty table happens only when no date is quoted for all three currencies |
| Dataset.FetchRestart | main.py:37-53 | with all responses in and `j` the loop's last restart, the `KeyError` is raised iff `j > 0` and the final table has rows. When no series repeats a date, it is raised iff `j > 0` and the series from `j` on share a date |
| Dataset.FetchCommonDates | main.py:22-55 | when no series repeats a date and some date is quoted for all three currencies, the fetch yields exactly those dates, each once, and each cell equals the quote of its currency for its date |
| Dataset.FetchNoCommonDates | main.py:22-55 | when no date is quoted for all three currencies, the fetch yields an empty table or hits the `KeyError`; it never invents rows |
| Store.WithoutDatesMembers | main.py:129 | dropping the rows whose date is in a list keeps exactly the rows whose date is not in it |
| Store.DropDuplicatesKeepLast | main.py:129 | `drop_duplicates(subset='Date', keep='last')` never lengthens the rows. Uniqueness, the kept date set and the keep-last choice are stated by `DropDuplicatesFacts`, and the order by `DropDuplicatesAppend` |
| Store.DropDuplicatesFacts | main.py:129 | `drop_duplicates(subset='Date', keep='last')` leaves each date once, loses no date, and keeps for each date its last row |
| Store.DropDuplicatesUnique | main.py:129 | dropping duplicates from rows with unique dates changes nothing |
| Store.DropDuplicatesAppend | main.py:129 | deduplicating `a + b` keeps a's deduplicated rows whose date b lacks, in order, followed by b's deduplicated rows |
| Store.UnionColumns | main.py:129 | the merged columns start with the stored ones, in their order, and are exactly the union of both lists. When neither list repeats a column, neither does the result |
| Store.UnionColumnsNone | main.py:129 | concatenating a table with no value columns adds no column |
| Store.UnionColumnsSnoc | main.py:129 | a further incoming column, not yet among the incoming ones, goes at the end unless it is already present. So the new columns not stored follow in the new table's order |
| Store.AppendNewData | main.py:119-134 | with no file, the new table is written as it is. Otherwise the merge has unique dates and exactly the dates of both tables. A date in the new data carries the new data's last row; any other date carries the stored last row. The columns are the union |
| Store.MergeOrder | main.py:129 | merged rows are the stored rows whose date is not new, in stored order, then the new rows; nothing is re-sorted |
| Store.MergeRows | main.py:127-131 | with unique dates on both sides, each new row is found under its date after the merge, and each stored row whose date is not new is found unchanged |
| Store.MergeIdempotent | main.py:127-131 | when a file exists, or the new table repeats no date, merging the same new table a second time gives the same table as merging it once |
| Store.FirstMergeIdempotent | main.py:127-131 | with no file, the new table is written as it is, and merging the same table into that file again leaves it unchanged iff the table repeats no date |
| Selection.Narrow | main.py:95 | narrowing a row keeps its date and exactly the cells of the chosen columns, with unchanged values |
| Selection.SelectColumns | main.py:83-98 | a table is saved iff some typed pair, once stripped, is an available column. The saved table's columns are exactly the accepted pairs of `validate_currency_pairs`, in typed order with duplicates. They are all available columns and the same dates, and each of its rows is the source row narrowed to the chosen columns. Complete rows stay complete |
| Selection.SelectAgain | main.py:89-95 | typing back exactly the saved table's columns selects the saved table again |
| Pipeline.ScheduledTask | main.py:136-145 | a failed request or the `KeyError` leaves the stored file as it was. A file exists afterwards iff it existed before or the fetch produced a table. With no file, the fetched table is stored as it is. Otherwise the fetched table is merged in: a fetched date is looked up as in the fetched table, and a stored date the fetch lacks keeps its stored row. No stored date or column is ever lost |
| Pipeline.FetchedUnique | main.py:22-37 | when every series has unique dates, a fetched table has unique dates |
| Pipeline.ScheduledTaskIdempotent | main.py:136-145 | when no series repeats a date, running the daily task twice on the same responses stores the same table as running it once |
| Pipeline.ScheduledTaskStoresQuotes | main.py:136-145 | when no series repeats a date, after the daily task, every date quoted for all three currencies is in the file, and its row holds each currency's quote for that date |

## Left out

- HTTP requests, URL building, `raise_for_status` and the four `except` clauses
  (main.py:25-31, 39-50). A failed request is a `None` response. A body that is
  not JSON also ends there: `response.json()` raises a `requests` decoding error,
  a `RequestException` since requests 2.27, so it is one more `None` response.
- A well-formed JSON body lacking `rates`, `mid` or `effectiveDate` (main.py:33-34).
  It raises a `KeyError` the fetch does not catch, and the daily task's generic
  handler logs it. The model's responses are always lists of rate points, so it
  cannot express this case.
- The 90-day date window and `datetime.today()` (main.py:19-20). They only shape
  the request.
- CSV reading and writing, `os.path.exists` and `save_data` (main.py:56-67, 127-128, 132).
  These are file I/O. The existing file is an optional table, and a file that
  cannot be read is not modelled.
- The generic `except Exception` clauses (main.py:133-134, 144-145). The only
  exception the model raises, the `KeyError` after a restarted join, is an
  outcome of the fetch, and the daily task then leaves the file unchanged.
- Logging, `print` and the `input` prompt (main.py:90-91, 98). The typed line is a parameter.
- `analyze_currency_pair` (main.py:100-114). It only prints floating-point statistics.
- The `schedule` registration and the sleep loop (main.py:148, 161-167). These
  are timing and process control.
- The start-up overwrite on the `__main__` path (main.py:152-154): every start
  fetches afresh and `save_data` replaces `all_currency_data.csv` with that
  table, discarding what the daily merges stored. That is CSV writing, so it is
  left out. The selection on that path (main.py:155) is modelled by
  `Selection.SelectColumns`, and the analysis prompt (main.py:156-157) is covered
  by the `analyze_currency_pair` line above.
- Dataset.AddCrossRates: computes with exact `real` division and requires a
  non-zero USD/PLN rate, instead of floating-point division with inf or NaN for a zero rate.
- Selection.SelectColumns: a pair typed twice is listed twice in the column list,
  but a row's cells form a map. So the duplicated column pandas would produce is
  one cell here.
- Pandas column suffixes on clashing merge columns. The three currency columns
  never clash, so `Dataset.Join` requires disjoint columns.
- Date parsing: dates are compared as the strings the service returns and the
  CSV stores. The same date in a different spelling would count as a different date.

=== FILE: dataset.dfy ===
/**
 Building the wide table from the fetched rate series
 (`fetch_currency_data`, main.py:12-55), without the HTTP requests: each
 response arrives already parsed, or as `None` when the request failed.

 Each series becomes a `Date`/pair table; the tables are inner-merged on
 `Date` in request order; when the result has rows, the cross rates
 EUR/USD and CHF/USD are appended as ratios of the PLN quotes.
 */
module Dataset {
  import opened Seqs
  import opened Tables

  /** One element of the service's `rates` array. */
  datatype RatePoint = RatePoint(effectiveDate: string, mid: real)

  /** The pairs requested, in request order (main.py:18). */
  const Currencies: seq<string> := ["EUR/PLN", "USD/PLN", "CHF/PLN"]
  const EurPln: string := "EUR/PLN"
  const UsdPln: string := "USD/PLN"
  const ChfPln: string := "CHF/PLN"
  const EurUsd: string := "EUR/USD"
  const ChfUsd: string := "CHF/USD"

  function SeriesDates(series: seq<RatePoint>): (ds: seq<string>)
    ensures |ds| == |series|
    ensures forall i {:trigger ds[i]} :: 0 <= i < |series| ==> ds[i] == series[i].effectiveDate
  {
    seq(|series|, i requires 0 <= i < |series| => series[i].effectiveDate)
  }

  /** The quote of the first point dated `d`. */
  function Quote(series: seq<RatePoint>, d: string): (q: Option<real>)
    ensures q.Some? <==> d in SeriesDates(series)
    decreases |series|
  {
    if series == [] then None
    else
      SeriesDatesTail(series);
      if series[0].effectiveDate == d then Some(series[0].mid)
      else Quote(series[1..], d)
  }

  lemma SeriesDatesTail(series: seq<RatePoint>)
    requires series != []
    ensures SeriesDates(series) == [series[0].effectiveDate] + SeriesDates(series[1..])
  {
    var l := SeriesDates(series);
    var r := [series[0].effectiveDate] + SeriesDates(series[1..]);
    forall i | 0 <= i < |l| ensures l[i] == r[i] {
      if i > 0 {
        assert r[i] == SeriesDates(series[1..])[i - 1];
      }
    }
  }

  /** In a series without repeated dates, each point is the quote of its date. */
  lemma {:induction false} QuoteUnique(series: seq<RatePoint>, i: int)
    requires Distinct(SeriesDates(series))
    requires 0 <= i < |series|
    ensures Quote(series, series[i].effectiveDate) == Some(series[i].mid)
    decreases |series|
  {
    if i > 0 {
      assert SeriesDates(series)[0] != SeriesDates(series)[i];
      SeriesDatesTail(series);
      assert SeriesDates(series[1..]) == SeriesDates(series)[1..];
      QuoteUnique(series[1..], i - 1);
    }
  }

  /** `pd.DataFrame({'Date': dates, currency: rates})` (main.py:33-36). */
  function SeriesTable(pair: string, series: seq<RatePoint>): (t: Table)
    ensures t.columns == [pair] && Complete(t)
    ensures Dates(t.rows) == SeriesDates(series)
    ensures forall i :: 0 <= i < |series| ==> pair in t.rows[i].cells && t.rows[i].cells[pair] == series[i].mid
  {
    Table([pair], seq(|series|, i requires 0 <= i < |series| =>
                        Row(series[i].effectiveDate, map[pair := series[i].mid])))
  }

  /** Each row of `right` dated like `l`, glued to `l`. */
  function MatchRows(l: Row, right: seq<Row>): (r: seq<Row>)
    decreases |right|
  {
    if right == [] then []
    else (if right[0].date == l.date then [Row(l.date, l.cells + right[0].cells)] else [])
         + MatchRows(l, right[1..])
  }

  /** The rows of an inner merge on `Date`: for each left row in order, one
      row per right row with the same date. */
  function JoinRows(left: seq<Row>, right: seq<Row>): (r: seq<Row>)
    decreases |left|
  {
    if left == [] then [] else MatchRows(left[0], right) + JoinRows(left[1..], right)
  }

  /** Every merged row is a left row and a right row of the same date, glued. */
  lemma {:induction false} MatchRowOrigin(l: Row, right: seq<Row>, row: Row) returns (m: Row)
    requires row in MatchRows(l, right)
    ensures m in right && m.date == l.date && row == Row(l.date, l.cells + m.cells)
    decreases |right|
  {
    if right[0].date == l.date && row == Row(l.date, l.cells + right[0].cells) {
      m := right[0];
    } else {
      m := MatchRowOrigin(l, right[1..], row);
    }
  }

  lemma {:induction false} JoinRowOrigin(left: seq<Row>, right: seq<Row>, row: Row) returns (l: Row, m: Row)
    requires row in JoinRows(left, right)
    ensures l in left && m in right && l.date == m.date == row.date
    ensures row.cells == l.cells + m.cells
    decreases |left|
  {
    if row in MatchRows(left[0], right) {
      l := left[0];
      m := MatchRowOrigin(l, right, row);
    } else {
      l, m := JoinRowOrigin(left[1..], right, row);
    }
  }

  /** Against right rows with unique dates, a left row matches at most once. */
  lemma {:induction false} MatchRowsDates(l: Row, right: seq<Row>)
    requires UniqueDates(right)
    ensures Dates(MatchRows(l, right)) == if l.date in Dates(right) then [l.date] else []
    decreases |right|
  {
    if right != [] {
      var head := if right[0].date == l.date then [Row(l.date, l.cells + right[0].cells)] else [];
      assert Dates(right[1..]) == Dates(right)[1..];
      assert UniqueDates(right[1..]);
      MatchRowsDates(l, right[1..]);
      DatesAppend(head, MatchRows(l, right[1..]));
      if right[0].date == l.date {
        assert Dates(right)[0] !in Dates(right)[1..];
      }
    }
  }

  /** Against right rows with unique dates, the merged dates are the left
      dates that the right side also has, in left order. */
  lemma {:induction false} JoinRowsDates(left: seq<Row>, right: seq<Row>)
    requires UniqueDates(right)
    ensures Dates(JoinRows(left, right)) == KeepIn(Dates(left), Dates(right))
    decreases |left|
  {
    if left != [] {
      MatchRowsDates(left[0], right);
      JoinRowsDates(left[1..], right);
      DatesAppend(MatchRows(left[0], right), JoinRows(left[1..], right));
      assert Dates(left)[1..] == Dates(left[1..]);
    }
  }

  /** What the inner merge of two tables keeps: complete rows stay complete,
      dates come out in left order filtered by the right dates, and no date
      repeats when neither side repeats one. */
  lemma JoinRowsFacts(left: Table, right: Table)
    ensures var rows := JoinRows(left.rows, right.rows);
      && (Complete(left) && Complete(right) ==> Complete(Table(left.columns + right.columns, rows)))
      && (UniqueDates(right.rows) ==> Dates(rows) == KeepIn(Dates(left.rows), Dates(right.rows)))
      && (UniqueDates(left.rows) && UniqueDates(right.rows) ==> UniqueDates(rows))
  {
    var t := Table(left.columns + right.columns, JoinRows(left.rows, right.rows));
    if UniqueDates(right.rows) {
      JoinRowsDates(left.rows, right.rows);
      if UniqueDates(left.rows) {
        KeepInDistinct(Dates(left.rows), Dates(right.rows));
      }
    }
    if Complete(left) && Complete(right) {
      forall row | row in t.rows
        ensures row.cells.Keys == set c | c in t.columns
      {
        var l, m := JoinRowOrigin(left.rows, right.rows, row);
      }
    }
  }

  /** `pd.merge(left, right, on='Date')` (main.py:37); pandas would rename
      clashing value columns, which the distinct pair names never produce. */
  function Join(left: Table, right: Table): (t: Table)
    requires forall c :: c in left.columns ==> c !in right.columns
    ensures t.columns == left.columns + right.columns
    ensures Complete(left) && Complete(right) ==> Complete(t)
    ensures UniqueDates(right.rows) ==> Dates(t.rows) == KeepIn(Dates(left.rows), Dates(right.rows))
    ensures UniqueDates(left.rows) && UniqueDates(right.rows) ==> UniqueDates(t.rows)
  {
    JoinRowsFacts(left, right);
    Table(left.columns + right.columns, JoinRows(left.rows, right.rows))
  }

  /** The fetch loop of main.py:24-37: an empty accumulated table (at the
      start, or after a merge that matched no date) is replaced by the next
      series' table instead of being merged with it. */
  function JoinAll(names: seq<string>, series: seq<seq<RatePoint>>): (t: Table)
    requires |names| == |series| && Distinct(names)
    ensures forall c :: c in t.columns ==> c in names
    ensures Complete(t)
    decreases |names|
  {
    if names == [] then Table([], [])
    else
      var n := |names| - 1;
      DistinctPrefix(names, n);
      var acc := JoinAll(names[..n], series[..n]);
      var next := SeriesTable(names[n], series[n]);
      if acc.rows == [] then next
      else
        assert forall c :: c in acc.columns ==> c in names[..n];
        assert names[n] !in names[..n] by {
          if names[n] in names[..n] {
            DistinctFoundBefore(names, n, n);
          }
        }
        Join(acc, next)
  }

  /** A date present in every series. */
  predicate InEvery(d: string, series: seq<seq<RatePoint>>) {
    forall k :: 0 <= k < |series| ==> d in SeriesDates(series[k])
  }

  /** The dates of `ds`, in order, that every series quotes. */
  function CommonDates(ds: seq<string>, series: seq<seq<RatePoint>>): (r: seq<string>)
    ensures forall d :: d in r <==> d in ds && InEvery(d, series)
    decreases |ds|
  {
    if ds == [] then []
    else (if InEvery(ds[0], series) then [ds[0]] else []) + CommonDates(ds[1..], series)
  }

  /** Narrowing the common dates by one more series. */
  lemma {:induction false} CommonDatesSnoc(ds: seq<string>, series: seq<seq<RatePoint>>, s: seq<RatePoint>)
    ensures KeepIn(CommonDates(ds, series), SeriesDates(s)) == CommonDates(ds, series + [s])
    decreases |ds|
  {
    assert forall d :: InEvery(d, series + [s]) <==> InEvery(d, series) && d in SeriesDates(s) by {
      forall d ensures InEvery(d, series + [s]) <==> InEvery(d, series) && d in SeriesDates(s) {
        if InEvery(d, series) && d in SeriesDates(s) {
          forall k | 0 <= k < |series + [s]| ensures d in SeriesDates((series + [s])[k]) {
            if k < |series| {
              assert (series + [s])[k] == series[k];
            }
          }
        }
        if InEvery(d, series + [s]) {
          assert (series + [s])[|series|] == s;
          forall k | 0 <= k < |series| ensures d in SeriesDates(series[k]) {
            assert (series + [s])[k] == series[k];
          }
        }
      }
    }
    if ds != [] {
      var head := if InEvery(ds[0], series) then [ds[0]] else [];
      CommonDatesSnoc(ds[1..], series, s);
      KeepInAppend(head, CommonDates(ds[1..], series), SeriesDates(s));
    }
  }

  /** Dates every series quotes all survive. */
  lemma {:induction false} CommonDatesAll(ds: seq<string>, series: seq<seq<RatePoint>>)
    requires forall d :: d in ds ==> InEvery(d, series)
    ensures CommonDates(ds, series) == ds
    decreases |ds|
  {
    if ds != [] {
      CommonDatesAll(ds[1..], series);
    }
  }

  /** The dates the inner join of `series` should have: those of the first
      series that every series quotes, in the first series' order. */
  function JoinedDates(series: seq<seq<RatePoint>>): (ds: seq<string>)
    requires |series| >= 1
    ensures forall d :: d in ds <==> InEvery(d, series)
  {
    CommonDates(SeriesDates(series[0]), series)
  }

  /** Adding a series narrows the joined dates by that series' dates; so
      when the longer list has common dates, so does the shorter one. */
  lemma JoinedDatesSnoc(series: seq<seq<RatePoint>>)
    requires |series| >= 2
    ensures var n := |series| - 1;
            && KeepIn(JoinedDates(series[..n]), SeriesDates(series[n])) == JoinedDates(series)
            && (JoinedDates(series) != [] ==> JoinedDates(series[..n]) != [])
  {
    var n := |series| - 1;
    assert series[..n][0] == series[0];
    assert series[..n] + [series[n]] == series;
    CommonDatesSnoc(SeriesDates(series[0]), series[..n], series[n]);
    if JoinedDates(series) != [] {
      var d := JoinedDates(series)[0];
      assert d in JoinedDates(series);
      assert InEvery(d, series);
      assert InEvery(d, series[..n]) by {
        forall k | 0 <= k < n ensures d in SeriesDates(series[..n][k]) {
          assert series[..n][k] == series[k];
          assert d in SeriesDates(series[k]);
        }
      }
      assert d in JoinedDates(series[..n]);
    }
  }

  predicate UniqueSeries(series: seq<seq<RatePoint>>) {
    forall k :: 0 <= k < |series| ==> Distinct(SeriesDates(series[k]))
  }

  /** Every cell of the named columns holds the quote of its series for the row's date. */
  predicate FromSeries(t: Table, names: seq<string>, series: seq<seq<RatePoint>>)
    requires |names| == |series|
  {
    forall row, k :: row in t.rows && 0 <= k < |names| && names[k] in row.cells ==>
      Quote(series[k], row.date) == Some(row.cells[names[k]])
  }

  /** One step of the fetch loop, unfolded. */
  lemma JoinAllUnfold(names: seq<string>, series: seq<seq<RatePoint>>)
    requires |names| == |series| >= 1 && Distinct(names)
    ensures Distinct(names[..|names| - 1])
    ensures var n := |names| - 1;
            var acc := JoinAll(names[..n], series[..n]);
            var next := SeriesTable(names[n], series[n]);
            && (acc.rows == [] ==> JoinAll(names, series) == next)
            && (acc.rows != [] ==>
                  && (forall c :: c in acc.columns ==> c !in next.columns)
                  && JoinAll(names, series) == Join(acc, next))
  {
    var n := |names| - 1;
    DistinctPrefix(names, n);
    var acc := JoinAll(names[..n], series[..n]);
    if names[n] in names[..n] {
      DistinctFoundBefore(names, n, n);
    }
  }

  /** A left row whose date the right side has is matched at least once. */
  lemma {:induction false} MatchRowsHasDate(l: Row, right: seq<Row>)
    requires l.date in Dates(right)
    ensures l.date in Dates(MatchRows(l, right))
    decreases |right|
  {
    var head := if right[0].date == l.date then [Row(l.date, l.cells + right[0].cells)] else [];
    DatesAppend(head, MatchRows(l, right[1..]));
    if right[0].date != l.date {
      assert Dates(right)[1..] == Dates(right[1..]);
      MatchRowsHasDate(l, right[1..]);
    }
  }

  /** A date both sides carry survives the inner merge, whatever the repetitions. */
  lemma {:induction false} JoinRowsHasDate(left: seq<Row>, right: seq<Row>, d: string)
    requires d in Dates(left) && d in Dates(right)
    ensures d in Dates(JoinRows(left, right))
    decreases |left|
  {
    DatesAppend(MatchRows(left[0], right), JoinRows(left[1..], right));
    if left[0].date == d {
      MatchRowsHasDate(left[0], right);
    } else {
      assert Dates(left)[1..] == Dates(left[1..]);
      JoinRowsHasDate(left[1..], right, d);
    }
  }

  /** A date quoted in every series keeps every accumulated table of the fetch
      loop non-empty, so the loop never restarts: the date is in the final
      table and all requested columns are there, in request order. */
  lemma {:induction false} JoinAllCommon(names: seq<string>, series: seq<seq<RatePoint>>, d: string)
    requires |names| == |series| >= 1 && Distinct(names)
    requires InEvery(d, series)
    ensures d in Dates(JoinAll(names, series).rows)
    ensures JoinAll(names, series).columns == names
    decreases |names|
  {
    var n := |names| - 1;
    JoinAllUnfold(names, series);
    var next := SeriesTable(names[n], series[n]);
    assert d in SeriesDates(series[n]);
    if n == 0 {
      assert names[..0] == [] && series[..0] == [];
      assert names == [names[0]];
    } else {
      InEveryPrefix(d, series, n);
      var acc := JoinAll(names[..n], series[..n]);
      JoinAllCommon(names[..n], series[..n], d);
      JoinRowsHasDate(acc.rows, next.rows, d);
      ButLast(names);
    }
  }

  /** A date in every series is in every series of a prefix. */
  lemma InEveryPrefix(d: string, series: seq<seq<RatePoint>>, n: int)
    requires InEvery(d, series) && 0 <= n <= |series|
    ensures InEvery(d, series[..n])
  {
    forall k | 0 <= k < n ensures d in SeriesDates(series[..n][k]) {
      assert series[..n][k] == series[k];
    }
  }

  /** A series without repeated dates gives a table of its own quotes. */
  lemma SeriesTableSourced(names: seq<string>, series: seq<seq<RatePoint>>, n: int)
    requires |names| == |series| && Distinct(names) && 0 <= n < |names|
    requires Distinct(SeriesDates(series[n]))
    ensures FromSeries(SeriesTable(names[n], series[n]), names, series)
    ensures UniqueDates(SeriesTable(names[n], series[n]).rows)
  {
    var next := SeriesTable(names[n], series[n]);
    forall row, k | row in next.rows && 0 <= k < |names| && names[k] in row.cells
      ensures Quote(series[k], row.date) == Some(row.cells[names[k]])
    {
      var i :| 0 <= i < |next.rows| && next.rows[i] == row;
      assert row == Row(series[n][i].effectiveDate, map[names[n] := series[n][i].mid]);
      assert names[k] == names[n];
      assert k == n;
      QuoteUnique(series[n], i);
    }
  }

  /** A table built from the first `n` series is sourced in the wider setting too. */
  lemma WidenSourced(names: seq<string>, series: seq<seq<RatePoint>>, n: int, t: Table)
    requires |names| == |series| && Distinct(names) && 0 <= n <= |names|
    requires Complete(t) && forall c :: c in t.columns ==> c in names[..n]
    requires FromSeries(t, names[..n], series[..n])
    ensures FromSeries(t, names, series)
  {
    forall row, k | row in t.rows && 0 <= k < |names| && names[k] in row.cells
      ensures Quote(series[k], row.date) == Some(row.cells[names[k]])
    {
      assert names[k] in t.columns;
      DistinctFoundBefore(names, k, n);
      assert names[..n][k] == names[k] && series[..n][k] == series[k];
    }
  }

  /** Gluing sourced rows gives sourced rows. */
  lemma JoinSourced(left: Table, right: Table, names: seq<string>, series: seq<seq<RatePoint>>)
    requires forall c :: c in left.columns ==> c !in right.columns
    requires |names| == |series|
    requires FromSeries(left, names, series) && FromSeries(right, names, series)
    ensures FromSeries(Join(left, right), names, series)
  {
    var t := Join(left, right);
    forall row, k | row in t.rows && 0 <= k < |names| && names[k] in row.cells
      ensures Quote(series[k], row.date) == Some(row.cells[names[k]])
    {
      var l, m := JoinRowOrigin(left.rows, right.rows, row);
    }
  }

  /** With unique dates in every series, the merged table has unique dates and
      each cell is its series' quote for the row's date. */
  lemma {:induction false} JoinAllSourced(names: seq<string>, series: seq<seq<RatePoint>>)
    requires |names| == |series| && Distinct(names)
    requires UniqueSeries(series)
    ensures UniqueDates(JoinAll(names, series).rows)
    ensures FromSeries(JoinAll(names, series), names, series)
    decreases |names|
  {
    if names != [] {
      var n := |names| - 1;
      JoinAllUnfold(names, series);
      assert UniqueSeries(series[..n]) by {
        forall k | 0 <= k < n ensures Distinct(SeriesDates(series[..n][k])) {
          assert series[..n][k] == series[k];
        }
      }
      JoinAllSourced(names[..n], series[..n]);
      var acc := JoinAll(names[..n], series[..n]);
      SeriesTableSourced(names, series, n);
      if acc.rows != [] {
        WidenSourced(names, series, n, acc);
        JoinSourced(acc, SeriesTable(names[n], series[n]), names, series);
      }
    }
  }

  /** The merge step of the fetch loop, once the accumulated table holds the
      common dates of the first `n` series under their `n` columns. */
  lemma JoinStepDates(names: seq<string>, series: seq<seq<RatePoint>>, acc: Table)
    requires |names| == |series| >= 2 && Distinct(names)
    requires UniqueSeries(series)
    requires var n := |names| - 1;
             Dates(acc.rows) == JoinedDates(series[..n]) && acc.columns == names[..n]
    ensures var n := |names| - 1;
            var next := SeriesTable(names[n], series[n]);
            && (forall c :: c in acc.columns ==> c !in next.columns)
            && Dates(Join(acc, next).rows) == JoinedDates(series)
            && Join(acc, next).columns == names
  {
    var n := |names| - 1;
    var next := SeriesTable(names[n], series[n]);
    assert names[..n] + [names[n]] == names;
    assert UniqueDates(next.rows);
    if names[n] in names[..n] {
      DistinctFoundBefore(names, n, n);
    }
    JoinedDatesSnoc(series);
  }

  lemma {:induction false} JoinAllDates(names: seq<string>, series: seq<seq<RatePoint>>)
    requires |names| == |series| >= 1 && Distinct(names)
    requires UniqueSeries(series)
    ensures var t := JoinAll(names, series);
            JoinedDates(series) != [] || (t.rows != [] && names[0] in t.columns) ==>
              Dates(t.rows) == JoinedDates(series) && t.columns == names
    decreases |names|
  {
    var n := |names| - 1;
    JoinAllUnfold(names, series);
    var next := SeriesTable(names[n], series[n]);
    if n == 0 {
      assert names[..0] == [] && series[..0] == [];
      CommonDatesAll(SeriesDates(series[0]), series);
      assert [names[0]] == names;
    } else {
      assert UniqueSeries(series[..n]) by {
        forall k | 0 <= k < n ensures Distinct(SeriesDates(series[..n][k])) {
          assert series[..n][k] == series[k];
        }
      }
      var acc := JoinAll(names[..n], series[..n]);
      JoinAllDates(names[..n], series[..n]);
      assert names[..n][0] == names[0];
      assert names[0] != names[n];
      JoinedDatesSnoc(series);
      if acc.rows != [] && (JoinedDates(series[..n]) != [] || names[0] in acc.columns) {
        JoinStepDates(names, series, acc);
      }
    }
  }

  /** The fetch loop's table after the first `k` series has no rows, so the
      next series starts the join afresh. */
  predicate EmptyAfter(names: seq<string>, series: seq<seq<RatePoint>>, k: int)
    requires |names| == |series| && Distinct(names) && 0 <= k <= |names|
  {
    // The call supplies `Distinct(names[..k])`, which `JoinAll` requires.
    DistinctPrefix(names, k);
    JoinAll(names[..k], series[..k]).rows == []
  }

  /** Whether the loop's table is empty after `k` series does not depend on
      the series after the `n`-th. */
  lemma EmptyAfterPrefix(names: seq<string>, series: seq<seq<RatePoint>>, n: int, k: int)
    requires |names| == |series| && n == |names| - 1 && Distinct(names) && 0 <= k <= n
    requires Distinct(names[..n])
    ensures EmptyAfter(names[..n], series[..n], k) == EmptyAfter(names, series, k)
  {
    assert names[..n][..k] == names[..k];
    assert series[..n][..k] == series[..k];
  }

  /** No restart after `j` among the first `n` series, and none at the last
      step either: no restart after `j` at all. */
  lemma NoLaterRestart(names: seq<string>, series: seq<seq<RatePoint>>, n: int, j: int)
    requires |names| == |series| && n == |names| - 1 && 0 <= j < n && Distinct(names)
    requires Distinct(names[..n])
    requires forall k :: j < k < n ==> !EmptyAfter(names[..n], series[..n], k)
    requires !EmptyAfter(names, series, n)
    ensures forall k :: j < k < |names| ==> !EmptyAfter(names, series, k)
  {
    NoRestartBetween(names, series, n, j);
    forall k | j < k < |names| ensures !EmptyAfter(names, series, k) {
      if k == n {
        assert !EmptyAfter(names, series, n);
      }
    }
  }

  /** No restart after `j` among the first `n` series, seen from all the
      series. */
  lemma NoRestartBetween(names: seq<string>, series: seq<seq<RatePoint>>, n: int, j: int)
    requires |names| == |series| && n == |names| - 1 && 0 <= j < n && Distinct(names)
    requires Distinct(names[..n])
    requires forall k :: j < k < n ==> !EmptyAfter(names[..n], series[..n], k)
    ensures forall k :: j < k < n ==> !EmptyAfter(names, series, k)
  {
    forall k | j < k < n ensures !EmptyAfter(names, series, k) {
      assert !EmptyAfter(names[..n], series[..n], k);
      EmptyAfterPrefix(names, series, n, k);
    }
  }

  /** The merge step of the loop after its last restart at `j`: merging the
      table of the series from `j` to `n - 1` with the `n`-th series' table
      gives the columns and the common dates of the series from `j` on. */
  lemma RestartStep(names: seq<string>, series: seq<seq<RatePoint>>, n: int, j: int, acc: Table, next: Table)
    requires |names| == |series| && n == |names| - 1 && 0 <= j < n
    requires next == SeriesTable(names[n], series[n])
    requires forall c :: c in acc.columns ==> c !in next.columns
    requires acc.columns == names[..n][j..]
    requires UniqueSeries(series[..n]) ==> Dates(acc.rows) == JoinedDates(series[..n][j..])
    ensures Join(acc, next).columns == names[j..]
    ensures UniqueSeries(series) ==> Dates(Join(acc, next).rows) == JoinedDates(series[j..])
  {
    SuffixButLast(names, j);
    if UniqueSeries(series) {
      UniqueSeriesPrefix(series, n);
      assert UniqueDates(next.rows);
      JoinedDatesSuffixSnoc(series, j);
    }
  }

  /** A prefix of series without repeated dates has none either. */
  lemma UniqueSeriesPrefix(series: seq<seq<RatePoint>>, n: int)
    requires UniqueSeries(series) && 0 <= n <= |series|
    ensures UniqueSeries(series[..n])
  {
    forall k | 0 <= k < n ensures Distinct(SeriesDates(series[..n][k])) {
      assert series[..n][k] == series[k];
    }
  }

  /** Adding the last series to a suffix of the first `n` series narrows the
      suffix's joined dates by that series' dates. */
  lemma JoinedDatesSuffixSnoc(series: seq<seq<RatePoint>>, j: int)
    requires 0 <= j < |series| - 1
    ensures var n := |series| - 1;
            KeepIn(JoinedDates(series[..n][j..]), SeriesDates(series[n])) == JoinedDates(series[j..])
  {
    var n := |series| - 1;
    var tail := series[j..];
    var m := |tail| - 1;
    assert tail[..m] == series[..n][j..];
    assert tail[m] == series[n];
    JoinedDatesSnoc(tail);
  }

  /** A single series' joined dates are its own dates. */
  lemma JoinedDatesOne(series: seq<seq<RatePoint>>, n: int)
    requires 0 <= n < |series|
    ensures JoinedDates(series[n..n + 1]) == SeriesDates(series[n])
  {
    var one := series[n..n + 1];
    assert one[0] == series[n];
    CommonDatesAll(SeriesDates(series[n]), one);
  }

  /** The loop's last restart is at the last series (or the loop has only
      one series): the final table is that series' own table. */
  lemma RestartLast(names: seq<string>, series: seq<seq<RatePoint>>, n: int)
    requires |names| == |series| && n == |names| - 1 && 0 <= n && Distinct(names)
    requires n == 0 || EmptyAfter(names, series, n)
    ensures JoinAll(names, series).columns == names[n..]
    ensures UniqueSeries(series) ==> Dates(JoinAll(names, series).rows) == JoinedDates(series[n..])
  {
    JoinAllUnfold(names, series);
    if n == 0 {
      assert names[..n] == [] && series[..n] == [];
    }
    assert JoinAll(names, series) == SeriesTable(names[n], series[n]);
    LastSeriesTable(names, series, n);
  }

  /** The last series' own table: the last pair's column and, without
      repeated dates, the last series' dates. */
  lemma LastSeriesTable(names: seq<string>, series: seq<seq<RatePoint>>, n: int)
    requires |names| == |series| && n == |names| - 1 && 0 <= n
    ensures SeriesTable(names[n], series[n]).columns == names[n..]
    ensures UniqueSeries(series) ==> Dates(SeriesTable(names[n], series[n]).rows) == JoinedDates(series[n..])
  {
    assert names[n..] == [names[n]];
    assert series[n..] == series[n..n + 1];
    JoinedDatesOne(series, n);
  }

  /** `j` is the last restart of the fetch loop over `names` and `series`,
      and the final table is the inner join of the series from `j` on. */
  predicate LastRestart(names: seq<string>, series: seq<seq<RatePoint>>, j: int)
    requires |names| == |series| && Distinct(names) && 0 <= j < |names|
  {
    && (j > 0 ==> EmptyAfter(names, series, j))
    && (forall k :: j < k < |names| ==> !EmptyAfter(names, series, k))
    && JoinAll(names, series).columns == names[j..]
    && (UniqueSeries(series) ==> Dates(JoinAll(names, series).rows) == JoinedDates(series[j..]))
  }

  /** The loop's table after the first `n` series is not empty, and its last
      restart there was at `j`: the last restart of the whole loop is still
      at `j`. */
  lemma RestartBefore(names: seq<string>, series: seq<seq<RatePoint>>, n: int, j: int)
    requires |names| == |series| && n == |names| - 1 && 0 <= j < n && Distinct(names)
    requires Distinct(names[..n])
    requires !EmptyAfter(names, series, n)
    requires LastRestart(names[..n], series[..n], j)
    ensures LastRestart(names, series, j)
  {
    EmptyAfterPrefix(names, series, n, j);
    NoLaterRestart(names, series, n, j);
    RestartJoin(names, series, n, j, JoinAll(names[..n], series[..n]));
  }

  /** The final table when the table after `n` series is not empty: the
      merge of that table, whose columns and dates start at `j`, with the
      last series' table. */
  lemma RestartJoin(names: seq<string>, series: seq<seq<RatePoint>>, n: int, j: int, acc: Table)
    requires |names| == |series| && n == |names| - 1 && 0 <= j < n && Distinct(names)
    requires Distinct(names[..n])
    requires acc == JoinAll(names[..n], series[..n]) && acc.rows != []
    requires acc.columns == names[..n][j..]
    requires UniqueSeries(series[..n]) ==> Dates(acc.rows) == JoinedDates(series[..n][j..])
    ensures JoinAll(names, series).columns == names[j..]
    ensures UniqueSeries(series) ==> Dates(JoinAll(names, series).rows) == JoinedDates(series[j..])
  {
    var next := SeriesTable(names[n], series[n]);
    JoinAllUnfold(names, series);
    assert JoinAll(names, series) == Join(acc, next);
    RestartStep(names, series, n, j, acc, next);
  }

  /** What the fetch loop computes, restarts included: `j` is the last point
      where the accumulated table was empty (`0` when it never was). The
      final table is the plain inner join of the series from `j` on: their
      columns, and under unique dates exactly their common dates. */
  lemma {:induction false} JoinAllRestart(names: seq<string>, series: seq<seq<RatePoint>>) returns (j: int)
    requires |names| == |series| >= 1 && Distinct(names)
    ensures 0 <= j < |names|
    ensures j > 0 ==> EmptyAfter(names, series, j)
    ensures forall k :: j < k < |names| ==> !EmptyAfter(names, series, k)
    ensures JoinAll(names, series).columns == names[j..]
    ensures UniqueSeries(series) ==> Dates(JoinAll(names, series).rows) == JoinedDates(series[j..])
    decreases |names|
  {
    var n := |names| - 1;
    if n == 0 || EmptyAfter(names, series, n) {
      j := n;
      RestartLast(names, series, n);
    } else {
      DistinctPrefix(names, n);
      j := JoinAllRestart(names[..n], series[..n]);
      RestartBefore(names, series, n, j);
    }
  }

  /** A column of `t` whose every cell is non-zero. */
  predicate NonZeroColumn(t: Table, c: string) {
    forall row :: row in t.rows && c in row.cells ==> row.cells[c] != 0.0
  }

  lemma JoinNonZero(left: Table, right: Table, c: string)
    requires forall x :: x in left.columns ==> x !in right.columns
    requires NonZeroColumn(left, c) && NonZeroColumn(right, c)
    ensures NonZeroColumn(Join(left, right), c)
  {
    forall row | row in Join(left, right).rows && c in row.cells
      ensures row.cells[c] != 0.0
    {
      var l, m := JoinRowOrigin(left.rows, right.rows, row);
    }
  }

  /** A series without zero quotes gives its column only non-zero cells. */
  lemma {:induction false} JoinAllNonZero(names: seq<string>, series: seq<seq<RatePoint>>, k: int)
    requires |names| == |series| && Distinct(names)
    requires 0 <= k < |names|
    requires forall p :: p in series[k] ==> p.mid != 0.0
    ensures NonZeroColumn(JoinAll(names, series), names[k])
    decreases |names|
  {
    var n := |names| - 1;
    JoinAllUnfold(names, series);
    var next := SeriesTable(names[n], series[n]);
    assert NonZeroColumn(next, names[k]) by {
      forall row | row in next.rows && names[k] in row.cells
        ensures row.cells[names[k]] != 0.0
      {
        var i :| 0 <= i < |next.rows| && next.rows[i] == row;
        assert names[k] == names[n];
        assert series[n][i] in series[k];
      }
    }
    var acc := JoinAll(names[..n], series[..n]);
    assert NonZeroColumn(acc, names[k]) by {
      if k < n {
        assert names[..n][k] == names[k] && series[..n][k] == series[k];
        JoinAllNonZero(names[..n], series[..n], k);
      } else {
        assert forall row :: row in acc.rows ==> names[k] !in row.cells;
      }
    }
    if acc.rows != [] {
      JoinNonZero(acc, next, names[k]);
    }
  }

  /** The accumulated columns start with the first name only when no restart happened. */
  lemma {:induction false} JoinAllColumns(names: seq<string>, series: seq<seq<RatePoint>>)
    requires |names| == |series| && Distinct(names)
    ensures var t := JoinAll(names, series);
            names != [] && names[0] in t.columns ==> t.columns == names
    decreases |names|
  {
    if names != [] {
      var n := |names| - 1;
      JoinAllUnfold(names, series);
      JoinAllColumns(names[..n], series[..n]);
      assert names[..n] + [names[n]] == names;
      if n > 0 {
        assert names[..n][0] == names[0] && names[0] != names[n];
      } else {
        assert names[..0] == [] && series[..0] == [];
      }
    }
  }

  /** A row carrying the three PLN quotes, the USD one non-zero. */
  predicate HasQuotes(row: Row) {
    EurPln in row.cells && UsdPln in row.cells && ChfPln in row.cells && row.cells[UsdPln] != 0.0
  }

  /** `after` is `before` with the cross rates set: EUR/USD times USD/PLN is
      EUR/PLN, CHF/USD times USD/PLN is CHF/PLN, and every other cell is kept. */
  predicate CrossRatesOf(before: Row, after: Row)
    requires HasQuotes(before)
  {
    && after.date == before.date
    && after.cells.Keys == before.cells.Keys + {EurUsd, ChfUsd}
    && after.cells[EurUsd] * before.cells[UsdPln] == before.cells[EurPln]
    && after.cells[ChfUsd] * before.cells[UsdPln] == before.cells[ChfPln]
    && forall c :: c in before.cells && c != EurUsd && c != ChfUsd ==> after.cells[c] == before.cells[c]
  }

  /** `data[c] = ...`: a column assignment appends the column unless it exists. */
  function SetColumn(columns: seq<string>, c: string): (r: seq<string>)
    ensures c in r && (forall x :: x in r <==> x in columns || x == c)
    ensures |columns| <= |r| && r[..|columns|] == columns
  {
    if c in columns then columns else columns + [c]
  }

  /** One row of main.py:53-54: the cross rates written into the row. */
  function WithCrossRates(row: Row): (r: Row)
    requires HasQuotes(row)
    ensures CrossRatesOf(row, r)
  {
    var cells := row.cells;
    Row(row.date, cells[EurUsd := cells[EurPln] / cells[UsdPln]]
                       [ChfUsd := cells[ChfPln] / cells[UsdPln]])
  }

  /** The derived columns of main.py:53-54. */
  function AddCrossRates(t: Table): (r: Table)
    requires forall i :: 0 <= i < |t.rows| ==> HasQuotes(t.rows[i])
    ensures r.columns == SetColumn(SetColumn(t.columns, EurUsd), ChfUsd)
    ensures |r.rows| == |t.rows|
    ensures forall i :: 0 <= i < |t.rows| ==> CrossRatesOf(t.rows[i], r.rows[i])
  {
    Table(SetColumn(SetColumn(t.columns, EurUsd), ChfUsd),
          seq(|t.rows|, i requires 0 <= i < |t.rows| => WithCrossRates(t.rows[i])))
  }

  /** A finished row of the fetched table: the three quotes and the two cross
      rates, each cross rate times USD/PLN giving its PLN quote. */
  predicate CrossRated(row: Row) {
    && row.cells.Keys == {EurPln, UsdPln, ChfPln, EurUsd, ChfUsd}
    && row.cells[UsdPln] != 0.0
    && row.cells[EurUsd] * row.cells[UsdPln] == row.cells[EurPln]
    && row.cells[ChfUsd] * row.cells[UsdPln] == row.cells[ChfPln]
  }

  /** A merged table with rows and the first pair's column has every quote the
      cross rates need, and gets both cross-rate columns on every row. */
  lemma JoinedCrossRates(series: seq<seq<RatePoint>>)
    requires |series| == |Currencies|
    requires forall p :: p in series[1] ==> p.mid != 0.0
    ensures var t := JoinAll(Currencies, series);
            t.rows != [] && EurPln in t.columns ==>
              && (forall i :: 0 <= i < |t.rows| ==> HasQuotes(t.rows[i]))
              && AddCrossRates(t).columns == Currencies + [EurUsd, ChfUsd]
              && forall i :: 0 <= i < |AddCrossRates(t).rows| ==> CrossRated(AddCrossRates(t).rows[i])
  {
    var t := JoinAll(Currencies, series);
    JoinedQuotes(series);
    if t.rows != [] && EurPln in t.columns {
      CrossRatesComplete(t);
    }
  }

  /** What `fetch_currency_data()` ends with: the DataFrame it returns, the
      `None` it returns after logging a request error, or the KeyError that
      `data['EUR/PLN']` (or one of the other two lookups) raises to its caller. */
  datatype FetchOutcome = Fetched(data: Table) | RequestFailed | MissingColumn

  /** All responses arrived, in request order. */
  function Received(responses: seq<Option<seq<RatePoint>>>): (series: seq<seq<RatePoint>>)
    requires forall k :: 0 <= k < |responses| ==> responses[k].Some?
    ensures |series| == |responses|
    ensures forall k :: 0 <= k < |responses| ==> responses[k] == Some(series[k])
  {
    seq(|responses|, k requires 0 <= k < |responses| => responses[k].value)
  }

  lemma CurrencySet()
    ensures (set c | c in Currencies) == {EurPln, UsdPln, ChfPln}
  {
    assert Currencies == [EurPln, UsdPln, ChfPln];
  }

  /** When no restart happened, every merged row has exactly the three quotes. */
  lemma JoinedQuotes(series: seq<seq<RatePoint>>)
    requires |series| == |Currencies|
    requires forall p :: p in series[1] ==> p.mid != 0.0
    ensures var t := JoinAll(Currencies, series);
            t.rows != [] && EurPln in t.columns ==>
              && t.columns == Currencies
              && forall i :: 0 <= i < |t.rows| ==>
                   HasQuotes(t.rows[i]) && t.rows[i].cells.Keys == {EurPln, UsdPln, ChfPln}
  {
    var t := JoinAll(Currencies, series);
    assert Distinct(Currencies);
    JoinAllColumns(Currencies, series);
    JoinAllNonZero(Currencies, series, 1);
    if t.rows != [] && EurPln in t.columns {
      CurrencySet();
      forall i | 0 <= i < |t.rows|
        ensures HasQuotes(t.rows[i]) && t.rows[i].cells.Keys == {EurPln, UsdPln, ChfPln}
      {
        assert t.rows[i] in t.rows;
      }
    }
  }

  /** The cross rates complete a row of the three quotes. */
  lemma CrossRatesComplete(t: Table)
    requires t.columns == Currencies
    requires forall i :: 0 <= i < |t.rows| ==>
               HasQuotes(t.rows[i]) && t.rows[i].cells.Keys == {EurPln, UsdPln, ChfPln}
    ensures AddCrossRates(t).columns == Currencies + [EurUsd, ChfUsd]
    ensures forall i :: 0 <= i < |t.rows| ==> CrossRated(AddCrossRates(t).rows[i])
  {
    var r := AddCrossRates(t);
    assert EurUsd !in Currencies && ChfUsd !in Currencies + [EurUsd];
    forall i | 0 <= i < |t.rows| ensures CrossRated(r.rows[i]) {
      assert CrossRatesOf(t.rows[i], r.rows[i]);
    }
  }

  /** The three requested pairs are different. */
  lemma CurrenciesDistinct()
    ensures Distinct(Currencies)
  {
  }

  /** With a date quoted for all three currencies, the fetch loop ends with
      rows and with all three columns. */
  lemma CommonDateJoined(series: seq<seq<RatePoint>>, d: string)
    requires |series| == |Currencies|
    requires InEvery(d, series)
    // The call supplies `Distinct(Currencies)`, which `JoinAll` requires of its pair names.
    ensures (CurrenciesDistinct(); JoinAll(Currencies, series).rows != [])
    ensures (CurrenciesDistinct(); JoinAll(Currencies, series).columns == Currencies)
  {
    CurrenciesDistinct();
    JoinAllCommon(Currencies, series, d);
  }

  /** When the fetch loop ends with no rows, or without all three columns, no
      date is quoted for all three currencies. */
  lemma NoCommonDate(series: seq<seq<RatePoint>>)
    requires |series| == |Currencies|
    // The call supplies `Distinct(Currencies)`, which `JoinAll` requires of its pair names.
    requires (CurrenciesDistinct();
              JoinAll(Currencies, series).rows == [] || JoinAll(Currencies, series).columns != Currencies)
    ensures forall d :: !InEvery(d, series)
  {
    forall d ensures !InEvery(d, series) {
      if InEvery(d, series) {
        CommonDateJoined(series, d);
      }
    }
  }

  /** A table the loop ends with never holds a cross-rate column. */
  lemma LoopHasNoCrossRates(series: seq<seq<RatePoint>>)
    requires |series| == |Currencies|
    // The call supplies `Distinct(Currencies)`, which `JoinAll` requires of its pair names.
    ensures (CurrenciesDistinct();
             var cs := JoinAll(Currencies, series).columns;
             EurUsd !in cs && ChfUsd !in cs)
  {
    CurrenciesDistinct();
    assert EurUsd !in Currencies && ChfUsd !in Currencies;
  }

  /** `fetch_currency_data()` given the parsed response for each pair of
      `Currencies`, `None` for a request that raised. */
  function FetchCurrencyData(responses: seq<Option<seq<RatePoint>>>): (r: FetchOutcome)
    requires |responses| == |Currencies|
    requires responses[1].Some? ==> forall p :: p in responses[1].value ==> p.mid != 0.0
    ensures r == RequestFailed <==> exists k :: 0 <= k < |responses| && responses[k].None?
    ensures r.Fetched? && r.data.rows == [] ==> EurUsd !in r.data.columns && ChfUsd !in r.data.columns
    ensures r.Fetched? && r.data.rows != [] ==>
      && r.data.columns == Currencies + [EurUsd, ChfUsd]
      && forall i :: 0 <= i < |r.data.rows| ==> CrossRated(r.data.rows[i])
    ensures (forall k :: 0 <= k < |responses| ==> responses[k].Some?) &&
            (r == MissingColumn || (r.Fetched? && r.data.rows == [])) ==>
              forall d :: !InEvery(d, Received(responses))
  {
    if exists k :: 0 <= k < |responses| && responses[k].None? then RequestFailed
    else
      var series := Received(responses);
      CurrenciesDistinct();
      var data := JoinAll(Currencies, series);
      if data.rows == [] then
        LoopHasNoCrossRates(series);
        NoCommonDate(series);
        Fetched(data)
      else if !(EurPln in data.columns && UsdPln in data.columns && ChfPln in data.columns) then
        assert data.columns != Currencies;
        NoCommonDate(series);
        MissingColumn
      else
        JoinedCrossRates(series);
        Fetched(AddCrossRates(data))
  }

  /** The fetch raises the `KeyError` exactly when the loop's table has rows
      but lacks one of the three currency columns. */
  lemma MissingColumnCase(responses: seq<Option<seq<RatePoint>>>)
    requires |responses| == |Currencies|
    requires forall k :: 0 <= k < |responses| ==> responses[k].Some?
    requires forall p :: p in responses[1].value ==> p.mid != 0.0
    // The call supplies `Distinct(Currencies)`, which `JoinAll` requires of its pair names.
    ensures (CurrenciesDistinct();
             var data := JoinAll(Currencies, Received(responses));
             FetchCurrencyData(responses) == MissingColumn <==>
               data.rows != [] && !(EurPln in data.columns && UsdPln in data.columns && ChfPln in data.columns))
  {
    CurrenciesDistinct();
  }

  /** A suffix of the requested pairs holds all three exactly when it is
      the whole list. */
  lemma RestartColumns(cs: seq<string>, j: int)
    requires 0 <= j < |Currencies| && cs == Currencies[j..]
    ensures EurPln in cs && UsdPln in cs && ChfPln in cs <==> j == 0
  {
  }

  /** The `KeyError` of the fetch, pinned by the loop's last restart `j`:
      it is raised exactly when the loop restarted after the first series and
      still ended with rows; with unique dates per series, exactly when the
      series from `j` on share a date. */
  lemma FetchRestart(responses: seq<Option<seq<RatePoint>>>) returns (j: int)
    requires |responses| == |Currencies|
    requires forall k :: 0 <= k < |responses| ==> responses[k].Some?
    requires forall p :: p in responses[1].value ==> p.mid != 0.0
    ensures 0 <= j < |Currencies|
    // The call supplies `Distinct(Currencies)`, which `JoinAll` requires of its pair names.
    ensures (CurrenciesDistinct(); LastRestart(Currencies, Received(responses), j))
    ensures FetchCurrencyData(responses) == MissingColumn <==>
              j > 0 && (CurrenciesDistinct(); JoinAll(Currencies, Received(responses)).rows != [])
    ensures UniqueSeries(Received(responses)) ==>
              (FetchCurrencyData(responses) == MissingColumn <==> j > 0 && JoinedDates(Received(responses)[j..]) != [])
  {
    var series := Received(responses);
    CurrenciesDistinct();
    j := JoinAllRestart(Currencies, series);
    MissingColumnCase(responses);
    RestartColumns(JoinAll(Currencies, series).columns, j);
    if UniqueSeries(series) {
      assert |Dates(JoinAll(Currencies, series).rows)| == |JoinAll(Currencies, series).rows|;
    }
  }

  /** The cross rates leave the dates and the quote cells as they were. */
  lemma CrossRatesKeep(t: Table)
    requires forall i :: 0 <= i < |t.rows| ==> HasQuotes(t.rows[i])
    ensures Dates(AddCrossRates(t).rows) == Dates(t.rows)
    ensures forall i, k :: 0 <= i < |t.rows| && 0 <= k < |Currencies| && Currencies[k] in t.rows[i].cells ==>
              AddCrossRates(t).rows[i].cells[Currencies[k]] == t.rows[i].cells[Currencies[k]]
  {
    var r := AddCrossRates(t);
    forall i | 0 <= i < |t.rows| ensures Dates(r.rows)[i] == Dates(t.rows)[i] {
      assert CrossRatesOf(t.rows[i], r.rows[i]);
    }
    forall i, k | 0 <= i < |t.rows| && 0 <= k < |Currencies| && Currencies[k] in t.rows[i].cells
      ensures r.rows[i].cells[Currencies[k]] == t.rows[i].cells[Currencies[k]]
    {
      assert CrossRatesOf(t.rows[i], r.rows[i]);
      assert Currencies[k] != EurUsd && Currencies[k] != ChfUsd;
    }
  }

  /** The fetch, once every response has arrived: the merged table when it
      is empty, the KeyError when the first pair's column is missing, the
      merged table with its cross rates otherwise. */
  lemma FetchReceived(responses: seq<Option<seq<RatePoint>>>)
    requires |responses| == |Currencies|
    requires forall k :: 0 <= k < |responses| ==> responses[k].Some?
    requires forall p :: p in responses[1].value ==> p.mid != 0.0
    ensures var data := JoinAll(Currencies, Received(responses));
            var r := FetchCurrencyData(responses);
            && (data.rows == [] ==> r == Fetched(data))
            && (data.rows != [] && EurPln !in data.columns ==> r == MissingColumn)
            && (data.rows != [] && EurPln in data.columns ==>
                  && data.columns == Currencies
                  && (forall i :: 0 <= i < |data.rows| ==> HasQuotes(data.rows[i]))
                  && r == Fetched(AddCrossRates(data)))
  {
    var series := Received(responses);
    assert !exists k :: 0 <= k < |responses| && responses[k].None?;
    JoinedQuotes(series);
    CurrencySet();
  }

  /** Adding the cross rates keeps every row sourced from its series. */
  lemma CrossRatesSourced(t: Table, series: seq<seq<RatePoint>>)
    requires |series| == |Currencies|
    requires forall i :: 0 <= i < |t.rows| ==> HasQuotes(t.rows[i])
    requires FromSeries(t, Currencies, series)
    ensures forall i, k :: 0 <= i < |t.rows| && 0 <= k < |Currencies| ==>
              Quote(series[k], AddCrossRates(t).rows[i].date)
                == Some(AddCrossRates(t).rows[i].cells[Currencies[k]])
  {
    var r := AddCrossRates(t);
    CrossRatesKeep(t);
    forall i, k | 0 <= i < |t.rows| && 0 <= k < |Currencies|
      ensures Quote(series[k], r.rows[i].date) == Some(r.rows[i].cells[Currencies[k]])
    {
      assert t.rows[i] in t.rows;
      assert HasQuotes(t.rows[i]);
      assert Currencies[k] in t.rows[i].cells;
      assert Dates(r.rows)[i] == Dates(t.rows)[i];
    }
  }

  /** Every row of a non-empty fetched table has a cell per pair. */
  lemma FetchedCells(responses: seq<Option<seq<RatePoint>>>)
    requires |responses| == |Currencies|
    requires responses[1].Some? ==> forall p :: p in responses[1].value ==> p.mid != 0.0
    ensures var r := FetchCurrencyData(responses);
            r.Fetched? && r.data.rows != [] ==>
              forall i, k :: 0 <= i < |r.data.rows| && 0 <= k < |Currencies| ==> Currencies[k] in r.data.rows[i].cells
  {
    var r := FetchCurrencyData(responses);
    if r.Fetched? && r.data.rows != [] {
      forall i, k | 0 <= i < |r.data.rows| && 0 <= k < |Currencies|
        ensures Currencies[k] in r.data.rows[i].cells
      {
        assert CrossRated(r.data.rows[i]);
      }
    }
  }

  /** With a date quoted in every series, the fetch returns those dates, once
      each, in the first series' order, each cell holding its series' quote. */
  lemma FetchCommonDates(responses: seq<Option<seq<RatePoint>>>)
    requires |responses| == |Currencies|
    requires forall k :: 0 <= k < |responses| ==> responses[k].Some?
    requires forall p :: p in responses[1].value ==> p.mid != 0.0
    requires UniqueSeries(Received(responses))
    requires JoinedDates(Received(responses)) != []
    ensures var r := FetchCurrencyData(responses);
            var series := Received(responses);
            && r.Fetched? && r.data.rows != []
            && Dates(r.data.rows) == JoinedDates(series)
            && UniqueDates(r.data.rows)
            && (forall i, k :: 0 <= i < |r.data.rows| && 0 <= k < |Currencies| ==>
                  Currencies[k] in r.data.rows[i].cells)
            && forall i, k :: 0 <= i < |r.data.rows| && 0 <= k < |Currencies| ==>
                 Quote(series[k], r.data.rows[i].date) == Some(r.data.rows[i].cells[Currencies[k]])
  {
    var series := Received(responses);
    var data := JoinAll(Currencies, series);
    assert Distinct(Currencies);
    JoinAllDates(Currencies, series);
    JoinAllSourced(Currencies, series);
    assert data.rows != [] && EurPln in data.columns by {
      assert |Dates(data.rows)| > 0;
      assert Currencies[0] == EurPln;
    }
    FetchReceived(responses);
    CrossRatesKeep(data);
    CrossRatesSourced(data, series);
    FetchedCells(responses);
  }

  /** Without a date quoted in every series, the fetch returns an empty table
      or raises the KeyError; it never invents rows. */
  lemma FetchNoCommonDates(responses: seq<Option<seq<RatePoint>>>)
    requires |responses| == |Currencies|
    requires forall k :: 0 <= k < |responses| ==> responses[k].Some?
    requires forall p :: p in responses[1].value ==> p.mid != 0.0
    requires UniqueSeries(Received(responses))
    requires JoinedDates(Received(responses)) == []
    ensures var r := FetchCurrencyData(responses);
            r == MissingColumn || (r.Fetched? && r.data.rows == [])
  {
    var series := Received(responses);
    assert Distinct(Currencies);
    JoinAllDates(Currencies, series);
    FetchReceived(responses);
  }
}

=== FILE: pairs.dfy ===
/**
 Currency-pair validation (`validate_currency_pairs`, main.py:69-81) and the
 comma split that feeds it (main.py:91). A user types a comma-separated line;
 each piece is stripped of surrounding white space and kept when it names one
 of the available pairs. Pieces that name no pair are reported as invalid.
 */
module Pairs {
  import opened Seqs

  /** The characters Python's `str.isspace` accepts; `str.strip()` with no
      argument removes exactly these from both ends. */
  predicate IsSpace(c: char) {
    var n := c as int;
    || n == 0x20
    || 0x09 <= n <= 0x0D
    || 0x1C <= n <= 0x1F
    || n == 0x85
    || n == 0xA0
    || n == 0x1680
    || 0x2000 <= n <= 0x200A
    || n == 0x2028
    || n == 0x2029
    || n == 0x202F
    || n == 0x205F
    || n == 0x3000
  }

  predicate AllSpace(s: string) {
    forall i :: 0 <= i < |s| ==> IsSpace(s[i])
  }

  /** A string with no white space at either end: what `strip()` returns. */
  predicate Stripped(s: string) {
    s == [] || (!IsSpace(s[0]) && !IsSpace(s[|s| - 1]))
  }

  /** Where the run of white space starting at `i` ends. */
  function SpaceRunEnd(s: string, i: nat): (r: nat)
    requires i <= |s|
    ensures i <= r <= |s|
    ensures forall k :: i <= k < r ==> IsSpace(s[k])
    ensures r < |s| ==> !IsSpace(s[r])
    decreases |s| - i
  {
    if i < |s| && IsSpace(s[i]) then SpaceRunEnd(s, i + 1) else i
  }

  /** Where the run of white space ending at `j` starts, not going below `lo`. */
  function SpaceRunStart(s: string, lo: nat, j: nat): (r: nat)
    requires lo <= j <= |s|
    ensures lo <= r <= j
    ensures forall k :: r <= k < j ==> IsSpace(s[k])
    ensures r > lo ==> !IsSpace(s[r - 1])
    decreases j
  {
    if j > lo && IsSpace(s[j - 1]) then SpaceRunStart(s, lo, j - 1) else j
  }

  /** `s.strip()`: the middle of `s` between its leading and trailing white space. */
  function Strip(s: string): (r: string)
    ensures Stripped(r)
    ensures exists i, j :: 0 <= i <= j <= |s| && r == s[i..j] && AllSpace(s[..i]) && AllSpace(s[j..])
  {
    var i := SpaceRunEnd(s, 0);
    var j := SpaceRunStart(s, i, |s|);
    assert AllSpace(s[..i]) && AllSpace(s[j..]);
    assert i < j ==> s[i..j][0] == s[i] && s[i..j][j - i - 1] == s[j - 1];
    s[i..j]
  }

  /** `strip()` removes exactly the white space around a stripped middle:
      the decomposition promised by `Strip`'s contract is unique. */
  lemma StripExact(a: string, m: string, b: string)
    requires AllSpace(a) && Stripped(m) && AllSpace(b)
    ensures Strip(a + m + b) == m
  {
    var s := a + m + b;
    assert forall k :: 0 <= k < |a| ==> s[k] == a[k];
    assert forall k :: |a| <= k < |a| + |m| ==> s[k] == m[k - |a|];
    assert forall k :: |a| + |m| <= k < |s| ==> s[k] == b[k - |a| - |m|];
    var i := SpaceRunEnd(s, 0);
    var j := SpaceRunStart(s, i, |s|);
    if m == [] {
      assert AllSpace(s);
      assert i == |s|;
    } else {
      var e := |a| + |m|;
      assert !IsSpace(s[|a|]) && !IsSpace(s[e - 1]);
      assert i <= |a| && !(i < |a|);
      assert i == |a|;
      assert j >= e && !(j > e);
      assert s[i..j] == m;
    }
  }

  /** Stripping twice is stripping once. */
  lemma StripIdempotent(s: string)
    ensures Strip(Strip(s)) == Strip(s)
  {
    var m := Strip(s);
    assert [] + m + [] == m;
    StripExact([], m, []);
  }

  /** Stripped pieces are left as they are. */
  lemma StripAllStripped(pieces: seq<string>)
    requires forall p :: p in pieces ==> Stripped(p)
    ensures StripAll(pieces) == pieces
  {
    forall i | 0 <= i < |pieces| ensures Strip(pieces[i]) == pieces[i] {
      assert pieces[i] in pieces;
      assert [] + pieces[i] + [] == pieces[i];
      StripExact([], pieces[i], []);
    }
  }

  /** Each user-typed piece, stripped. */
  function StripAll(inputs: seq<string>): (r: seq<string>)
    ensures |r| == |inputs|
    ensures forall p :: p in r ==> Stripped(p)
  {
    seq(|inputs|, i requires 0 <= i < |inputs| => Strip(inputs[i]))
  }

  /** The accepted pairs (the function's return value) and the rejected ones
      (the pairs named in the warning it logs). */
  datatype Validation = Validation(valid: seq<string>, invalid: seq<string>)

  /** `validate_currency_pairs(input_pairs, available_pairs)`. */
  function ValidateCurrencyPairs(inputs: seq<string>, available: seq<string>): (r: Validation)
    ensures forall p :: p in r.valid <==> p in StripAll(inputs) && p in available
    ensures forall p :: p in r.invalid <==> p in StripAll(inputs) && p !in available
    ensures forall p :: p in r.valid + r.invalid ==> Stripped(p)
    ensures multiset(r.valid) + multiset(r.invalid) == multiset(StripAll(inputs))
    ensures |r.valid| + |r.invalid| == |inputs|
  {
    var stripped := StripAll(inputs);
    KeepDropPartition(stripped, available);
    Validation(KeepIn(stripped, available), DropIn(stripped, available))
  }

  /** Duplicates are kept: an available pair is accepted as many times as it was typed. */
  lemma ValidateKeepsDuplicates(inputs: seq<string>, available: seq<string>, p: string)
    ensures multiset(ValidateCurrencyPairs(inputs, available).valid)[p]
         == if p in available then multiset(StripAll(inputs))[p] else 0
  {
    KeepInCount(StripAll(inputs), available, p);
  }

  /** Stripping works piece by piece. */
  lemma StripAllAppend(a: seq<string>, b: seq<string>)
    ensures StripAll(a + b) == StripAll(a) + StripAll(b)
  {
    var l := StripAll(a + b);
    var r := StripAll(a) + StripAll(b);
    assert |l| == |r|;
    forall i | 0 <= i < |a| ensures l[i] == r[i] {
      assert (a + b)[i] == a[i];
    }
    forall i | |a| <= i < |l| ensures l[i] == r[i] {
      assert (a + b)[i] == b[i - |a|];
    }
  }

  /** Input order is kept: validating two batches of input one after the
      other gives the same lists as validating them together. */
  lemma ValidatePreservesOrder(a: seq<string>, b: seq<string>, available: seq<string>)
    ensures ValidateCurrencyPairs(a + b, available).valid
         == ValidateCurrencyPairs(a, available).valid + ValidateCurrencyPairs(b, available).valid
    ensures ValidateCurrencyPairs(a + b, available).invalid
         == ValidateCurrencyPairs(a, available).invalid + ValidateCurrencyPairs(b, available).invalid
  {
    StripAllAppend(a, b);
    KeepInAppend(StripAll(a), StripAll(b), available);
    DropInAppend(StripAll(a), StripAll(b), available);
  }

  /** Validating the accepted list again accepts all of it, unchanged. */
  lemma ValidateIdempotent(inputs: seq<string>, available: seq<string>)
    ensures var v := ValidateCurrencyPairs(inputs, available).valid;
            ValidateCurrencyPairs(v, available) == Validation(v, [])
  {
    var v := ValidateCurrencyPairs(inputs, available).valid;
    StripAllStripped(v);
    KeepInAllIn(v, available);
  }

  /** `line.split(',')`: the pieces between commas; an empty line gives one empty piece. */
  function SplitComma(line: string): (r: seq<string>)
    ensures |r| >= 1
    ensures forall p :: p in r ==> ',' !in p
    decreases |line|
  {
    if line == [] then [[]]
    else
      var rest := SplitComma(line[1..]);
      if line[0] == ',' then [[]] + rest
      else [[line[0]] + rest[0]] + rest[1..]
  }

  /** `','.join(pieces)`. */
  function JoinComma(pieces: seq<string>): string
    requires |pieces| >= 1
    decreases |pieces|
  {
    if |pieces| == 1 then pieces[0] else pieces[0] + [','] + JoinComma(pieces[1..])
  }

  /** Splitting loses nothing: joining the pieces back with commas gives the line. */
  lemma {:induction false} SplitJoin(line: string)
    ensures JoinComma(SplitComma(line)) == line
    decreases |line|
  {
    if line != [] {
      var rest := SplitComma(line[1..]);
      SplitJoin(line[1..]);
      if line[0] == ',' {
        assert line == [','] + line[1..];
      } else if |rest| == 1 {
        assert line == [line[0]] + line[1..];
      } else {
        var pieces := SplitComma(line);
        assert pieces[1..] == rest[1..];
        assert line == [line[0]] + line[1..];
      }
    }
  }

  /** Joining comma-free pieces and splitting again gives the pieces back. */
  lemma {:induction false} JoinSplit(pieces: seq<string>)
    requires |pieces| >= 1
    requires forall p :: p in pieces ==> ',' !in p
    ensures SplitComma(JoinComma(pieces)) == pieces
    decreases |pieces|, |pieces[0]|
  {
    if |pieces| == 1 {
      SplitNoComma(pieces[0]);
    } else if pieces[0] == [] {
      var tail := JoinComma(pieces[1..]);
      assert JoinComma(pieces) == [','] + tail;
      assert ([','] + tail)[1..] == tail;
      JoinSplit(pieces[1..]);
      assert pieces == [[]] + pieces[1..];
    } else {
      var p0 := pieces[0];
      var shorter := [p0[1..]] + pieces[1..];
      assert shorter[1..] == pieces[1..];
      assert forall c :: c in p0[1..] ==> c in p0;
      assert forall p :: p in shorter ==> ',' !in p;
      JoinSplit(shorter);
      var line := JoinComma(pieces);
      assert line == [p0[0]] + JoinComma(shorter);
      assert line[1..] == JoinComma(shorter);
      assert line[0] == p0[0] && p0[0] != ',';
      assert p0 == [p0[0]] + p0[1..];
    }
  }

  /** A line without a comma is one piece. */
  lemma {:induction false} SplitNoComma(s: string)
    requires ',' !in s
    ensures SplitComma(s) == [s]
    decreases |s|
  {
    if s != [] {
      SplitNoComma(s[1..]);
      assert s == [s[0]] + s[1..];
    }
  }
}

=== FILE: pipeline.dfy ===
/**
 The daily job (`scheduled_task`, main.py:136-145): fetch the rates and, when
 the fetch returns a table, merge it into the stored file. A failed request
 or the KeyError raised inside the fetch is caught and logged, leaving the
 stored file as it was. The stored file is `None` when it does not exist yet.
 */
module Pipeline {
  import opened Tables
  import opened Store
  import opened Dataset

  /** One run of the job against the stored table and the three responses. */
  function ScheduledTask(stored: Option<Table>, responses: seq<Option<seq<RatePoint>>>): (r: Option<Table>)
    requires |responses| == |Currencies|
    requires responses[1].Some? ==> forall p :: p in responses[1].value ==> p.mid != 0.0
    ensures (exists k :: 0 <= k < |responses| && responses[k].None?) ==> r == stored
    ensures FetchCurrencyData(responses) == MissingColumn ==> r == stored
    ensures r.None? <==> stored.None? && !FetchCurrencyData(responses).Fetched?
    ensures stored.Some? ==> forall d :: d in Dates(stored.value.rows) ==> d in Dates(r.value.rows)
    ensures stored.Some? ==> forall c :: c in stored.value.columns ==> c in r.value.columns
    ensures var f := FetchCurrencyData(responses);
            f.Fetched? && stored.None? ==> r == Some(f.data)
    ensures var f := FetchCurrencyData(responses);
            f.Fetched? ==> r.Some? && forall d :: d in Dates(f.data.rows) ==> Latest(r.value.rows, d) == Latest(f.data.rows, d)
    ensures var f := FetchCurrencyData(responses);
            f.Fetched? && stored.Some? ==>
              forall d :: d !in Dates(f.data.rows) ==> Latest(r.value.rows, d) == Latest(stored.value.rows, d)
  {
    match FetchCurrencyData(responses)
    case Fetched(t) => Some(AppendNewData(stored, t))
    case _ => stored
  }

  /** A fetched table never repeats a date when no series does. */
  lemma FetchedUnique(responses: seq<Option<seq<RatePoint>>>)
    requires |responses| == |Currencies|
    requires responses[1].Some? ==> forall p :: p in responses[1].value ==> p.mid != 0.0
    requires (forall k :: 0 <= k < |responses| ==> responses[k].Some?) ==> UniqueSeries(Received(responses))
    ensures FetchCurrencyData(responses).Fetched? ==> UniqueDates(FetchCurrencyData(responses).data.rows)
  {
    if forall k :: 0 <= k < |responses| ==> responses[k].Some? {
      if JoinedDates(Received(responses)) != [] {
        FetchCommonDates(responses);
      } else {
        FetchNoCommonDates(responses);
        assert Dates([]) == [];
      }
    }
  }

  /** Running the job twice on the same responses stores what one run stores. */
  lemma ScheduledTaskIdempotent(stored: Option<Table>, responses: seq<Option<seq<RatePoint>>>)
    requires |responses| == |Currencies|
    requires responses[1].Some? ==> forall p :: p in responses[1].value ==> p.mid != 0.0
    requires (forall k :: 0 <= k < |responses| ==> responses[k].Some?) ==> UniqueSeries(Received(responses))
    ensures ScheduledTask(ScheduledTask(stored, responses), responses) == ScheduledTask(stored, responses)
  {
    match FetchCurrencyData(responses)
    case Fetched(t) =>
      FetchedUnique(responses);
      MergeIdempotent(stored, t);
    case _ =>
  }

  /** Rows sourced from the series stay sourced once merged into the store:
      the stored row for a fetched date is the fetched row. */
  lemma MergeKeepsQuotes(stored: Option<Table>, t: Table, series: seq<seq<RatePoint>>, d: string)
    requires |series| == |Currencies|
    requires forall i, k :: 0 <= i < |t.rows| && 0 <= k < |Currencies| ==>
               Currencies[k] in t.rows[i].cells &&
               Quote(series[k], t.rows[i].date) == Some(t.rows[i].cells[Currencies[k]])
    requires d in Dates(t.rows)
    ensures var r := AppendNewData(stored, t);
            && Latest(r.rows, d).Some?
            && forall k :: 0 <= k < |Currencies| ==>
                 Currencies[k] in Latest(r.rows, d).value.cells &&
                 Quote(series[k], d) == Some(Latest(r.rows, d).value.cells[Currencies[k]])
  {
    MergeFindsNew(stored, t, d);
    var row := Latest(t.rows, d).value;
    var i :| 0 <= i < |t.rows| && t.rows[i] == row;
    forall k | 0 <= k < |Currencies|
      ensures Currencies[k] in row.cells && Quote(series[k], d) == Some(row.cells[Currencies[k]])
    {
      assert Currencies[k] in t.rows[i].cells &&
             Quote(series[k], t.rows[i].date) == Some(t.rows[i].cells[Currencies[k]]);
      assert t.rows[i].date == d;
    }
  }

  /** After a run whose responses all arrived, every date quoted in all three
      series is stored, and the stored row holds that day's quotes. */
  lemma ScheduledTaskStoresQuotes(stored: Option<Table>, responses: seq<Option<seq<RatePoint>>>, d: string)
    requires |responses| == |Currencies|
    requires forall k :: 0 <= k < |responses| ==> responses[k].Some?
    requires forall p :: p in responses[1].value ==> p.mid != 0.0
    requires UniqueSeries(Received(responses))
    requires d in JoinedDates(Received(responses))
    ensures var r := ScheduledTask(stored, responses);
            && r.Some? && Latest(r.value.rows, d).Some?
            && forall k :: 0 <= k < |Currencies| ==>
                 Currencies[k] in Latest(r.value.rows, d).value.cells &&
                 Quote(Received(responses)[k], d) == Some(Latest(r.value.rows, d).value.cells[Currencies[k]])
  {
    FetchCommonDates(responses);
    var t := FetchCurrencyData(responses).data;
    MergeKeepsQuotes(stored, t, Received(responses), d);
  }
}

=== FILE: selection.dfy ===
/**
 Column selection (`select_and_save_data`, main.py:83-98): the user types a
 comma-separated list of pairs, the list is validated against the table's
 columns after `Date`, and the table narrowed to `Date` plus the accepted
 pairs is what gets saved. Nothing is saved when no pair is accepted.
 */
module Selection {
  import opened Seqs
  import opened Tables
  import opened Pairs

  /** The accepted pairs for a typed line, in typed order, duplicates kept. */
  function Chosen(data: Table, line: string): (valid: seq<string>)
    ensures forall p :: p in valid <==> p in StripAll(SplitComma(line)) && p in data.columns
  {
    ValidateCurrencyPairs(SplitComma(line), data.columns).valid
  }

  /** A row narrowed to the cells of the given columns. */
  function Narrow(row: Row, columns: seq<string>): (r: Row)
    ensures r.date == row.date
    ensures forall c :: c in r.cells <==> c in row.cells && c in columns
    ensures forall c :: c in r.cells ==> r.cells[c] == row.cells[c]
  {
    Row(row.date, map c | c in row.cells && c in columns :: row.cells[c])
  }

  /** The table narrowed to `Date` and the given columns, row by row. */
  function NarrowTable(data: Table, columns: seq<string>): (t: Table)
    ensures t.columns == columns && |t.rows| == |data.rows|
    ensures Dates(t.rows) == Dates(data.rows)
    ensures forall i :: 0 <= i < |data.rows| ==> t.rows[i] == Narrow(data.rows[i], columns)
    ensures Complete(data) && (forall c :: c in columns ==> c in data.columns) ==> Complete(t)
  {
    var rows := seq(|data.rows|, i requires 0 <= i < |data.rows| => Narrow(data.rows[i], columns));
    var t := Table(columns, rows);
    NarrowComplete(data, t);
    t
  }

  lemma NarrowComplete(data: Table, t: Table)
    requires |t.rows| == |data.rows|
    requires forall i :: 0 <= i < |data.rows| ==> t.rows[i] == Narrow(data.rows[i], t.columns)
    ensures Complete(data) && (forall c :: c in t.columns ==> c in data.columns) ==> Complete(t)
  {
    if Complete(data) && (forall c :: c in t.columns ==> c in data.columns) {
      forall row | row in t.rows ensures row.cells.Keys == set c | c in t.columns {
        var i :| 0 <= i < |t.rows| && t.rows[i] == row;
        assert data.rows[i] in data.rows;
      }
    }
  }

  /** `data[['Date'] + valid_selected_pairs]`, or nothing when no pair was accepted. */
  function SelectColumns(data: Table, line: string): (r: Option<Table>)
    ensures r.Some? <==> exists p :: p in StripAll(SplitComma(line)) && p in data.columns
    ensures r.Some? ==> r.value.columns == ValidateCurrencyPairs(SplitComma(line), data.columns).valid
    ensures r.Some? ==> forall c :: c in r.value.columns ==> c in data.columns
    ensures r.Some? ==> Dates(r.value.rows) == Dates(data.rows)
    ensures r.Some? ==> |r.value.rows| == |data.rows|
    ensures r.Some? ==> forall i :: 0 <= i < |data.rows| ==>
              r.value.rows[i] == Narrow(data.rows[i], r.value.columns)
    ensures r.Some? && Complete(data) ==> Complete(r.value)
  {
    var valid := Chosen(data, line);
    if valid == [] then
      assert forall p :: p in StripAll(SplitComma(line)) ==> p !in data.columns;
      None
    else
      assert valid[0] in valid;
      Some(NarrowTable(data, valid))
  }

  /** Stripping a comma-free piece leaves it comma-free. */
  lemma StripNoComma(s: string)
    requires ',' !in s
    ensures ',' !in Strip(s)
  {
    var i, j :| 0 <= i <= j <= |s| && Strip(s) == s[i..j];
    assert forall c :: c in s[i..j] ==> c in s;
  }

  /** Typing back the accepted pairs, comma-separated, accepts them again
      against any column list that holds them. */
  lemma RetypeAccepted(line: string, available: seq<string>, columns: seq<string>)
    requires forall c :: c in ValidateCurrencyPairs(SplitComma(line), available).valid ==> c in columns
    ensures var valid := ValidateCurrencyPairs(SplitComma(line), available).valid;
            valid != [] ==> ValidateCurrencyPairs(SplitComma(JoinComma(valid)), columns).valid == valid
  {
    var valid := ValidateCurrencyPairs(SplitComma(line), available).valid;
    if valid != [] {
      var pieces := SplitComma(line);
      forall p | p in valid ensures ',' !in p {
        var k :| 0 <= k < |StripAll(pieces)| && StripAll(pieces)[k] == p;
        assert pieces[k] in pieces;
        StripNoComma(pieces[k]);
      }
      JoinSplit(valid);
      StripAllStripped(valid);
      KeepInAllIn(valid, columns);
    }
  }

  /** Narrowing a row twice to the same columns is narrowing it once. */
  lemma NarrowTwice(row: Row, columns: seq<string>)
    ensures Narrow(Narrow(row, columns), columns) == Narrow(row, columns)
  {
    assert Narrow(Narrow(row, columns), columns).cells == Narrow(row, columns).cells;
  }

  /** Narrowing a table twice to the same columns is narrowing it once. */
  lemma NarrowTableTwice(data: Table, columns: seq<string>)
    ensures NarrowTable(NarrowTable(data, columns), columns) == NarrowTable(data, columns)
  {
    var t := NarrowTable(data, columns);
    var again := NarrowTable(t, columns);
    forall i | 0 <= i < |t.rows| ensures again.rows[i] == t.rows[i] {
      NarrowTwice(data.rows[i], columns);
    }
  }

  /** Typing back exactly the saved columns selects the saved table again. */
  lemma SelectAgain(data: Table, line: string)
    requires SelectColumns(data, line).Some?
    ensures var t := SelectColumns(data, line).value;
            SelectColumns(t, JoinComma(t.columns)) == Some(t)
  {
    var valid := Chosen(data, line);
    var t := NarrowTable(data, valid);
    assert SelectColumns(data, line) == Some(t);
    RetypeAccepted(line, data.columns, valid);
    assert Chosen(t, JoinComma(valid)) == valid;
    NarrowTableTwice(data, valid);
  }
}

=== FILE: seqs.dfy ===
/**
 Order-preserving filters over sequences, shared by the pair validation and
 the date join: keeping (or dropping) the elements of one sequence that occur
 in another, the way a Python list comprehension with an `in` test does.
 */
module Seqs {

  /** No value occurs twice in `xs`. */
  predicate Distinct<T(==, !new)>(xs: seq<T>) {
    forall i, j :: 0 <= i < j < |xs| ==> xs[i] != xs[j]
  }

  /** The elements of `xs` that occur in `ys`, in the order and with the
      multiplicity they have in `xs`. */
  function KeepIn<T(==, !new)>(xs: seq<T>, ys: seq<T>): (r: seq<T>)
    ensures forall x :: x in r <==> x in xs && x in ys
    ensures |r| <= |xs|
  {
    if xs == [] then []
    else (if xs[0] in ys then [xs[0]] else []) + KeepIn(xs[1..], ys)
  }

  /** The elements of `xs` that do not occur in `ys`, in order, duplicates kept. */
  function DropIn<T(==, !new)>(xs: seq<T>, ys: seq<T>): (r: seq<T>)
    ensures forall x :: x in r <==> x in xs && x !in ys
    ensures |r| <= |xs|
  {
    if xs == [] then []
    else (if xs[0] !in ys then [xs[0]] else []) + DropIn(xs[1..], ys)
  }

  /** Concatenation is associative. */
  lemma AppendAssoc<T>(a: seq<T>, b: seq<T>, c: seq<T>)
    ensures a + (b + c) == (a + b) + c
  {
  }

  /** A non-empty sequence is its front followed by its last element. */
  lemma ButLast<T>(xs: seq<T>)
    requires xs != []
    ensures xs[..|xs| - 1] + [xs[|xs| - 1]] == xs
  {
  }

  /** A suffix of the front, followed by the last element, is the suffix of the whole. */
  lemma SuffixButLast<T>(xs: seq<T>, j: int)
    requires 0 <= j < |xs|
    ensures xs[..|xs| - 1][j..] + [xs[|xs| - 1]] == xs[j..]
  {
    var n := |xs| - 1;
    var l := xs[..n][j..] + [xs[n]];
    assert |l| == |xs[j..]|;
    forall i | 0 <= i < |l| ensures l[i] == xs[j..][i] {
      if i < n - j {
        assert l[i] == xs[..n][j..][i] == xs[j + i];
      }
    }
  }

  /** Filtering distributes over concatenation: the kept elements of `a + b`
      are those of `a` followed by those of `b`, so relative order is kept. */
  lemma {:induction false} KeepInAppend<T(!new)>(a: seq<T>, b: seq<T>, ys: seq<T>)
    ensures KeepIn(a + b, ys) == KeepIn(a, ys) + KeepIn(b, ys)
    decreases |a|
  {
    if a == [] {
      assert a + b == b;
    } else {
      var head := if a[0] in ys then [a[0]] else [];
      assert (a + b)[0] == a[0];
      assert (a + b)[1..] == a[1..] + b;
      KeepInAppend(a[1..], b, ys);
      calc {
        KeepIn(a + b, ys);
        head + KeepIn(a[1..] + b, ys);
        head + (KeepIn(a[1..], ys) + KeepIn(b, ys));
        (head + KeepIn(a[1..], ys)) + KeepIn(b, ys);
      }
    }
  }

  /** The dropped elements of `a + b` are those of `a` followed by those of `b`. */
  lemma {:induction false} DropInAppend<T(!new)>(a: seq<T>, b: seq<T>, ys: seq<T>)
    ensures DropIn(a + b, ys) == DropIn(a, ys) + DropIn(b, ys)
    decreases |a|
  {
    if a == [] {
      assert a + b == b;
    } else {
      var head := if a[0] !in ys then [a[0]] else [];
      assert (a + b)[0] == a[0];
      assert (a + b)[1..] == a[1..] + b;
      DropInAppend(a[1..], b, ys);
      calc {
        DropIn(a + b, ys);
        head + DropIn(a[1..] + b, ys);
        head + (DropIn(a[1..], ys) + DropIn(b, ys));
        (head + DropIn(a[1..], ys)) + DropIn(b, ys);
      }
    }
  }

  /** Every element of `xs` lands in exactly one of the two filters. */
  lemma {:induction false} KeepDropPartition<T(!new)>(xs: seq<T>, ys: seq<T>)
    ensures multiset(KeepIn(xs, ys)) + multiset(DropIn(xs, ys)) == multiset(xs)
    ensures |KeepIn(xs, ys)| + |DropIn(xs, ys)| == |xs|
    decreases |xs|
  {
    if xs != [] {
      KeepDropPartition(xs[1..], ys);
      assert xs == [xs[0]] + xs[1..];
    }
  }

  /** The filter keeps every copy of an element of `ys` and no copy of anything else. */
  lemma {:induction false} KeepInCount<T(!new)>(xs: seq<T>, ys: seq<T>, x: T)
    ensures multiset(KeepIn(xs, ys))[x] == if x in ys then multiset(xs)[x] else 0
    decreases |xs|
  {
    if xs != [] {
      KeepInCount(xs[1..], ys, x);
      assert xs == [xs[0]] + xs[1..];
    }
  }

  /** Filtering a sequence all of whose elements pass changes nothing. */
  lemma {:induction false} KeepInAllIn<T(!new)>(xs: seq<T>, ys: seq<T>)
    requires forall x :: x in xs ==> x in ys
    ensures KeepIn(xs, ys) == xs
    ensures DropIn(xs, ys) == []
    decreases |xs|
  {
    if xs != [] {
      KeepInAllIn(xs[1..], ys);
    }
  }

  /** Filtering never introduces a repetition. */
  lemma {:induction false} KeepInDistinct<T(!new)>(xs: seq<T>, ys: seq<T>)
    requires Distinct(xs)
    ensures Distinct(KeepIn(xs, ys))
    ensures Distinct(DropIn(xs, ys))
    decreases |xs|
  {
    if xs != [] {
      assert Distinct(xs[1..]) by {
        forall i, j | 0 <= i < j < |xs[1..]|
          ensures xs[1..][i] != xs[1..][j]
        {
          assert xs[1..][i] == xs[i + 1] && xs[1..][j] == xs[j + 1];
        }
      }
      KeepInDistinct(xs[1..], ys);
      assert xs[0] !in xs[1..];
    }
  }

  /** Two repetition-free sequences with no common element concatenate to one. */
  lemma DistinctAppend<T(!new)>(a: seq<T>, b: seq<T>)
    requires Distinct(a) && Distinct(b)
    requires forall x :: x in b ==> x !in a
    ensures Distinct(a + b)
  {
    forall i, j | 0 <= i < j < |a + b| ensures (a + b)[i] != (a + b)[j] {
      if j >= |a| {
        assert (a + b)[j] == b[j - |a|];
        if i >= |a| {
          assert (a + b)[i] == b[i - |a|];
        } else {
          assert (a + b)[i] == a[i] && b[j - |a|] in b;
        }
      }
    }
  }

  /** A prefix of a repetition-free sequence is repetition-free. */
  lemma DistinctPrefix<T(!new)>(xs: seq<T>, n: int)
    requires Distinct(xs) && 0 <= n <= |xs|
    ensures Distinct(xs[..n])
  {
    forall i, j | 0 <= i < j < n
      ensures xs[..n][i] != xs[..n][j]
    {
      assert xs[..n][i] == xs[i] && xs[..n][j] == xs[j];
    }
  }

  /** In a repetition-free sequence, an element found among the first `n` sits there. */
  lemma DistinctFoundBefore<T(!new)>(xs: seq<T>, k: int, n: int)
    requires Distinct(xs) && 0 <= k < |xs| && 0 <= n <= |xs|
    requires xs[k] in xs[..n]
    ensures k < n
  {
    var j :| 0 <= j < n && xs[..n][j] == xs[k];
    assert xs[j] == xs[k];
  }
}

=== FILE: store.dfy ===
/**
 Merge-by-date of freshly fetched rows into the stored table
 (`append_new_data_to_csv`, main.py:119-134). Reading and writing the CSV
 file are left to the caller: the stored table arrives as an optional value
 (absent when no file exists) and the merged table is returned.
 */
module Store {
  import opened Seqs
  import opened Tables

  /** The rows whose date is not among `ds`, in order. */
  function WithoutDates(rows: seq<Row>, ds: seq<string>): (r: seq<Row>)
    ensures |r| <= |rows|
    decreases |rows|
  {
    if rows == [] then []
    else (if rows[0].date !in ds then [rows[0]] else []) + WithoutDates(rows[1..], ds)
  }

  /** The filter keeps exactly the rows dated outside `ds`. */
  lemma {:induction false} WithoutDatesMembers(rows: seq<Row>, ds: seq<string>)
    ensures forall row :: row in WithoutDates(rows, ds) <==> row in rows && row.date !in ds
    ensures forall d :: d in Dates(WithoutDates(rows, ds)) <==> d in Dates(rows) && d !in ds
    decreases |rows|
  {
    if rows != [] {
      var head := if rows[0].date !in ds then [rows[0]] else [];
      var rest := WithoutDates(rows[1..], ds);
      WithoutDatesMembers(rows[1..], ds);
      DatesAppend(head, rest);
      assert rows == [rows[0]] + rows[1..];
      DatesAppend([rows[0]], rows[1..]);
    }
  }

  /** Putting in front a row whose date is not yet present keeps dates unique. */
  lemma UniqueCons(row: Row, rows: seq<Row>)
    requires UniqueDates(rows) && row.date !in Dates(rows)
    ensures UniqueDates([row] + rows)
  {
    var ds := Dates([row] + rows);
    forall i, j | 0 <= i < j < |ds|
      ensures ds[i] != ds[j]
    {
      assert ds[j] == Dates(rows)[j - 1];
      if i > 0 {
        assert ds[i] == Dates(rows)[i - 1];
      }
    }
  }

  /** The filter distributes over concatenation, so relative order is kept. */
  lemma {:induction false} WithoutDatesAppend(a: seq<Row>, b: seq<Row>, ds: seq<string>)
    ensures WithoutDates(a + b, ds) == WithoutDates(a, ds) + WithoutDates(b, ds)
    decreases |a|
  {
    if a == [] {
      assert a + b == b;
    } else {
      var head := if a[0].date !in ds then [a[0]] else [];
      assert (a + b)[0] == a[0];
      assert (a + b)[1..] == a[1..] + b;
      WithoutDatesAppend(a[1..], b, ds);
      assert head + (WithoutDates(a[1..], ds) + WithoutDates(b, ds))
          == (head + WithoutDates(a[1..], ds)) + WithoutDates(b, ds);
    }
  }

  /** Rows whose dates all avoid `ds` pass the filter unchanged. */
  lemma {:induction false} WithoutDatesNone(rows: seq<Row>, ds: seq<string>)
    requires forall d :: d in Dates(rows) ==> d !in ds
    ensures WithoutDates(rows, ds) == rows
    decreases |rows|
  {
    if rows != [] {
      assert Dates(rows)[0] == rows[0].date;
      assert Dates(rows[1..]) == Dates(rows)[1..];
      WithoutDatesNone(rows[1..], ds);
    }
  }

  /** Rows whose dates all lie in `ds` are all dropped. */
  lemma {:induction false} WithoutDatesAll(rows: seq<Row>, ds: seq<string>)
    requires forall d :: d in Dates(rows) ==> d in ds
    ensures WithoutDates(rows, ds) == []
    decreases |rows|
  {
    if rows != [] {
      assert Dates(rows)[0] == rows[0].date;
      assert Dates(rows[1..]) == Dates(rows)[1..];
      WithoutDatesAll(rows[1..], ds);
    }
  }

  /** One step of `DropDuplicatesKeepLast`: given the deduplicated tail, the
      first row is dropped when a later row repeats its date and kept otherwise. */
  lemma DropDuplicatesStep(rows: seq<Row>, rest: seq<Row>)
    requires rows != []
    requires UniqueDates(rest)
    requires forall d :: d in Dates(rest) <==> d in Dates(rows[1..])
    requires forall d :: Latest(rest, d) == Latest(rows[1..], d)
    ensures var r := if rows[0].date in Dates(rows[1..]) then rest else [rows[0]] + rest;
            && UniqueDates(r)
            && (forall d :: d in Dates(r) <==> d in Dates(rows))
            && (forall d :: Latest(r, d) == Latest(rows, d))
  {
    assert rows == [rows[0]] + rows[1..];
    DatesAppend([rows[0]], rows[1..]);
    forall d ensures Latest(rows, d) == if d in Dates(rows[1..]) then Latest(rows[1..], d) else Latest([rows[0]], d) {
      LatestAppend([rows[0]], rows[1..], d);
    }
    if rows[0].date !in Dates(rows[1..]) {
      UniqueCons(rows[0], rest);
      DatesAppend([rows[0]], rest);
      forall d ensures Latest([rows[0]] + rest, d) == if d in Dates(rest) then Latest(rest, d) else Latest([rows[0]], d) {
        LatestAppend([rows[0]], rest, d);
      }
    }
  }

  /** `drop_duplicates(subset='Date', keep='last')`: a row survives when no
      later row has its date; survivors keep their relative order. What it
      guarantees is stated by `DropDuplicatesFacts`. */
  function DropDuplicatesKeepLast(rows: seq<Row>): (r: seq<Row>)
    ensures |r| <= |rows|
    decreases |rows|
  {
    if rows == [] then []
    else
      var rest := DropDuplicatesKeepLast(rows[1..]);
      if rows[0].date in Dates(rows[1..]) then rest else [rows[0]] + rest
  }

  /** Deduplication leaves unique dates, loses no date, and every date keeps
      the row that came last. */
  lemma {:induction false} DropDuplicatesFacts(rows: seq<Row>)
    ensures UniqueDates(DropDuplicatesKeepLast(rows))
    ensures forall d :: d in Dates(DropDuplicatesKeepLast(rows)) <==> d in Dates(rows)
    ensures forall d :: Latest(DropDuplicatesKeepLast(rows), d) == Latest(rows, d)
    decreases |rows|
  {
    if rows != [] {
      DropDuplicatesFacts(rows[1..]);
      DropDuplicatesStep(rows, DropDuplicatesKeepLast(rows[1..]));
    }
  }

  /** Rows that already have unique dates lose nothing to deduplication. */
  lemma {:induction false} DropDuplicatesUnique(rows: seq<Row>)
    requires UniqueDates(rows)
    ensures DropDuplicatesKeepLast(rows) == rows
    decreases |rows|
  {
    if rows != [] {
      assert Dates(rows[1..]) == Dates(rows)[1..];
      assert UniqueDates(rows[1..]);
      assert rows[0].date !in Dates(rows[1..]) by {
        assert Dates(rows)[0] == rows[0].date;
      }
      DropDuplicatesUnique(rows[1..]);
    }
  }

  /** One step of the filter. */
  lemma WithoutDatesCons(row: Row, rest: seq<Row>, ds: seq<string>)
    ensures WithoutDates([row] + rest, ds) == (if row.date !in ds then [row] else []) + WithoutDates(rest, ds)
  {
    assert ([row] + rest)[0] == row;
    assert ([row] + rest)[1..] == rest;
  }

  /** One step of the deduplication. */
  lemma DropDuplicatesCons(row: Row, rest: seq<Row>)
    ensures DropDuplicatesKeepLast([row] + rest)
         == if row.date in Dates(rest) then DropDuplicatesKeepLast(rest) else [row] + DropDuplicatesKeepLast(rest)
  {
    assert ([row] + rest)[0] == row;
    assert ([row] + rest)[1..] == rest;
  }

  /** The inductive step of `DropDuplicatesAppend`: one more row in front. */
  lemma DropDuplicatesAppendStep(x: Row, tail: seq<Row>, b: seq<Row>)
    requires DropDuplicatesKeepLast(tail + b)
          == WithoutDates(DropDuplicatesKeepLast(tail), Dates(b)) + DropDuplicatesKeepLast(b)
    ensures DropDuplicatesKeepLast([x] + (tail + b))
         == WithoutDates(DropDuplicatesKeepLast([x] + tail), Dates(b)) + DropDuplicatesKeepLast(b)
  {
    var kept := WithoutDates(DropDuplicatesKeepLast(tail), Dates(b));
    var newRows := DropDuplicatesKeepLast(b);
    DatesAppend(tail, b);
    var inTail := x.date in Dates(tail);
    var inB := x.date in Dates(b);
    assert (x.date in Dates(tail + b)) == (inTail || inB);
    DropDuplicatesCons(x, tail + b);
    DropDuplicatesCons(x, tail);
    WithoutDatesCons(x, DropDuplicatesKeepLast(tail), Dates(b));
    if inTail || inB {
      calc {
        DropDuplicatesKeepLast([x] + (tail + b));
        DropDuplicatesKeepLast(tail + b);
        kept + newRows;
      }
      if inTail {
        assert DropDuplicatesKeepLast([x] + tail) == DropDuplicatesKeepLast(tail);
      } else {
        calc {
          WithoutDates(DropDuplicatesKeepLast([x] + tail), Dates(b));
          WithoutDates([x] + DropDuplicatesKeepLast(tail), Dates(b));
          [] + kept;
          { assert [] + kept == kept; }
          kept;
        }
      }
    } else {
      calc {
        DropDuplicatesKeepLast([x] + (tail + b));
        [x] + DropDuplicatesKeepLast(tail + b);
        [x] + (kept + newRows);
        { AppendAssoc([x], kept, newRows); }
        ([x] + kept) + newRows;
        WithoutDates([x] + DropDuplicatesKeepLast(tail), Dates(b)) + newRows;
        WithoutDates(DropDuplicatesKeepLast([x] + tail), Dates(b)) + newRows;
      }
    }
  }

  /** Deduplicating a concatenation: the surviving stored rows are those whose date
      the new block does not repeat, in their stored order, followed by the new
      block deduplicated. */
  lemma {:induction false} DropDuplicatesAppend(a: seq<Row>, b: seq<Row>)
    ensures DropDuplicatesKeepLast(a + b)
         == WithoutDates(DropDuplicatesKeepLast(a), Dates(b)) + DropDuplicatesKeepLast(b)
    decreases |a|
  {
    if a == [] {
      assert a + b == b;
    } else {
      var x := a[0];
      var tail := a[1..];
      assert a == [x] + tail;
      assert a + b == [x] + (tail + b);
      DropDuplicatesAppend(tail, b);
      DropDuplicatesAppendStep(x, tail, b);
    }
  }

  /** The column union of `pd.concat`: the stored columns, then the new ones the
      stored table lacks. */
  function UnionColumns(stored: seq<string>, incoming: seq<string>): (r: seq<string>)
    ensures forall c :: c in r <==> c in stored || c in incoming
    ensures |stored| <= |r| && r[..|stored|] == stored
    ensures Distinct(stored) && Distinct(incoming) ==> Distinct(r)
  {
    AddedDistinct(stored, incoming);
    stored + DropIn(incoming, stored)
  }

  lemma AddedDistinct(stored: seq<string>, incoming: seq<string>)
    ensures Distinct(stored) && Distinct(incoming) ==> Distinct(stored + DropIn(incoming, stored))
  {
    if Distinct(stored) && Distinct(incoming) {
      KeepInDistinct(incoming, stored);
      DistinctAppend(stored, DropIn(incoming, stored));
    }
  }

  /** With no new column, the union is the stored columns. */
  lemma UnionColumnsNone(stored: seq<string>)
    ensures UnionColumns(stored, []) == stored
  {
  }

  /** One more new column goes at the end of the union, unless the stored
      columns already have it: the new columns keep their incoming order. */
  lemma UnionColumnsSnoc(stored: seq<string>, incoming: seq<string>, c: string)
    requires c !in incoming
    ensures UnionColumns(stored, incoming + [c])
         == if c in UnionColumns(stored, incoming) then UnionColumns(stored, incoming)
            else UnionColumns(stored, incoming) + [c]
  {
    DropInAppend(incoming, [c], stored);
    assert DropIn([c], stored) == if c in stored then [] else [c];
  }

  /** `append_new_data_to_csv(new_data, filename)` with the file's content as
      `existing` (`None` when the file does not exist). */
  function AppendNewData(existing: Option<Table>, incoming: Table): (r: Table)
    ensures existing.None? ==> r == incoming
    ensures existing.Some? ==> UniqueDates(r.rows)
    ensures existing.Some? ==>
      forall d :: d in Dates(r.rows) <==> d in Dates(existing.value.rows) || d in Dates(incoming.rows)
    ensures existing.Some? ==>
      forall d :: Latest(r.rows, d) == if d in Dates(incoming.rows) then Latest(incoming.rows, d)
                                       else Latest(existing.value.rows, d)
    ensures existing.Some? ==> r.columns == UnionColumns(existing.value.columns, incoming.columns)
  {
    match existing
    case None => incoming
    case Some(stored) =>
      DatesAppend(stored.rows, incoming.rows);
      DropDuplicatesFacts(stored.rows + incoming.rows);
      assert forall d :: Latest(stored.rows + incoming.rows, d)
                      == if d in Dates(incoming.rows) then Latest(incoming.rows, d) else Latest(stored.rows, d) by {
        forall d { LatestAppend(stored.rows, incoming.rows, d); }
      }
      Table(UnionColumns(stored.columns, incoming.columns),
            DropDuplicatesKeepLast(stored.rows + incoming.rows))
  }

  /** After the merge, a date of the new data is looked up in the new data. */
  lemma MergeFindsNew(existing: Option<Table>, incoming: Table, d: string)
    requires d in Dates(incoming.rows)
    ensures Latest(AppendNewData(existing, incoming).rows, d) == Latest(incoming.rows, d)
  {
  }

  /** Row order after the merge: the stored rows whose date the new data does not
      carry, in their stored order, then the new rows (deduplicated) in theirs.
      Nothing is re-sorted. */
  lemma MergeOrder(stored: Table, incoming: Table)
    ensures AppendNewData(Some(stored), incoming).rows
         == WithoutDates(DropDuplicatesKeepLast(stored.rows), Dates(incoming.rows))
          + DropDuplicatesKeepLast(incoming.rows)
  {
    DropDuplicatesAppend(stored.rows, incoming.rows);
  }

  /** With unique dates on both sides, a date of the new data carries the new
      data's row and a date only in the stored data keeps its stored row. */
  lemma MergeRows(stored: Table, incoming: Table, d: string)
    requires UniqueDates(stored.rows) && UniqueDates(incoming.rows)
    ensures forall i :: 0 <= i < |incoming.rows| ==>
      Latest(AppendNewData(Some(stored), incoming).rows, incoming.rows[i].date) == Some(incoming.rows[i])
    ensures forall i :: 0 <= i < |stored.rows| && stored.rows[i].date !in Dates(incoming.rows) ==>
      Latest(AppendNewData(Some(stored), incoming).rows, stored.rows[i].date) == Some(stored.rows[i])
  {
    forall i | 0 <= i < |incoming.rows|
      ensures Latest(incoming.rows, incoming.rows[i].date) == Some(incoming.rows[i])
    {
      LatestUnique(incoming.rows, i);
    }
    forall i | 0 <= i < |stored.rows|
      ensures Latest(stored.rows, stored.rows[i].date) == Some(stored.rows[i])
    {
      LatestUnique(stored.rows, i);
    }
  }

  /** The column union is already complete after one merge. */
  lemma UnionColumnsIdempotent(stored: seq<string>, incoming: seq<string>)
    ensures UnionColumns(UnionColumns(stored, incoming), incoming) == UnionColumns(stored, incoming)
  {
    KeepInAllIn(incoming, UnionColumns(stored, incoming));
  }

  /** Merged rows (kept old rows, then the deduplicated new ones) absorb the
      same new rows a second time unchanged. */
  lemma ReMergeRows(kept: seq<Row>, incoming: seq<Row>)
    requires UniqueDates(kept + DropDuplicatesKeepLast(incoming))
    requires forall d :: d in Dates(kept) ==> d !in Dates(incoming)
    ensures DropDuplicatesKeepLast(kept + DropDuplicatesKeepLast(incoming) + incoming)
         == kept + DropDuplicatesKeepLast(incoming)
  {
    var ds := Dates(incoming);
    var newRows := DropDuplicatesKeepLast(incoming);
    var merged := kept + newRows;
    DropDuplicatesFacts(incoming);
    assert forall d :: d in Dates(newRows) ==> d in ds;
    assert DropDuplicatesKeepLast(merged + incoming) == WithoutDates(DropDuplicatesKeepLast(merged), ds) + newRows by {
      DropDuplicatesAppend(merged, incoming);
    }
    assert DropDuplicatesKeepLast(merged) == merged by {
      DropDuplicatesUnique(merged);
    }
    assert WithoutDates(merged, ds) == WithoutDates(kept, ds) + WithoutDates(newRows, ds) by {
      WithoutDatesAppend(kept, newRows, ds);
    }
    assert WithoutDates(kept, ds) == kept by {
      WithoutDatesNone(kept, ds);
    }
    assert WithoutDates(newRows, ds) == [] by {
      WithoutDatesAll(newRows, ds);
    }
    assert kept + [] == kept;
  }

  /** Merging the same new data a second time changes nothing. Without a
      stored table the first merge stores the new data as it is, so the new
      data must then have unique dates for the second merge to leave it alone. */
  lemma MergeIdempotent(existing: Option<Table>, incoming: Table)
    requires existing.None? ==> UniqueDates(incoming.rows)
    ensures var once := AppendNewData(existing, incoming);
            AppendNewData(Some(once), incoming) == once
  {
    var once := AppendNewData(existing, incoming);
    var newRows := DropDuplicatesKeepLast(incoming.rows);
    match existing
    case None =>
      DropDuplicatesUnique(incoming.rows);
      assert [] + newRows == incoming.rows;
      ReMergeRows([], incoming.rows);
      assert once.rows + incoming.rows == [] + newRows + incoming.rows;
      KeepInAllIn(incoming.columns, incoming.columns);
      assert UnionColumns(once.columns, incoming.columns) == once.columns + [];
    case Some(stored) =>
      var kept := WithoutDates(DropDuplicatesKeepLast(stored.rows), Dates(incoming.rows));
      DropDuplicatesAppend(stored.rows, incoming.rows);
      WithoutDatesMembers(DropDuplicatesKeepLast(stored.rows), Dates(incoming.rows));
      ReMergeRows(kept, incoming.rows);
    UnionColumnsIdempotent(once.columns, incoming.columns);
    KeepInAllIn(incoming.columns, once.columns);
  }

  /** With no file the new table is written as it is, so merging it again
      changes nothing exactly when it repeats no date. */
  lemma FirstMergeIdempotent(incoming: Table)
    ensures var once := AppendNewData(None, incoming);
            AppendNewData(Some(once), incoming) == once <==> UniqueDates(incoming.rows)
  {
    if UniqueDates(incoming.rows) {
      MergeIdempotent(None, incoming);
    }
  }
}

=== FILE: tables.dfy ===
/**
 The wide rate table that `main.py` keeps in a pandas DataFrame: a `Date`
 column followed by one numeric column per currency pair. A row is its date
 string and a map from column name to rate; a column missing from a row's map
 is an empty (NaN) cell.
 */
module Tables {
  import opened Seqs

  datatype Option<T> = None | Some(value: T)

  datatype Row = Row(date: string, cells: map<string, real>)

  /** `columns` lists the columns after `Date`, in order. */
  datatype Table = Table(columns: seq<string>, rows: seq<Row>)

  /** The `Date` column, top to bottom. */
  function Dates(rows: seq<Row>): (ds: seq<string>)
    ensures |ds| == |rows|
    ensures forall i {:trigger ds[i]} :: 0 <= i < |rows| ==> ds[i] == rows[i].date
  {
    if rows == [] then [] else [rows[0].date] + Dates(rows[1..])
  }

  /** No date occurs on two rows. */
  predicate UniqueDates(rows: seq<Row>) {
    Distinct(Dates(rows))
  }

  /** Every row has a cell in every column and in no other. */
  predicate Complete(t: Table) {
    forall row :: row in t.rows ==> row.cells.Keys == set c | c in t.columns
  }

  lemma DatesAppend(a: seq<Row>, b: seq<Row>)
    ensures Dates(a + b) == Dates(a) + Dates(b)
  {
    assert |Dates(a + b)| == |Dates(a) + Dates(b)|;
    forall i | 0 <= i < |a + b|
      ensures Dates(a + b)[i] == (Dates(a) + Dates(b))[i]
    {
      if i >= |a| {
        assert (a + b)[i] == b[i - |a|];
      }
    }
  }

  /** The last row dated `d`, if any: the row that a lookup keeping the last
      duplicate finds. */
  function Latest(rows: seq<Row>, d: string): (r: Option<Row>)
    ensures r.Some? <==> d in Dates(rows)
    ensures r.Some? ==> r.value in rows && r.value.date == d
    decreases |rows|
  {
    if rows == [] then None
    else
      var last := rows[|rows| - 1];
      var front := rows[..|rows| - 1];
      assert rows == front + [last];
      DatesAppend(front, [last]);
      if last.date == d then Some(last) else Latest(front, d)
  }

  /** Looking up a date in two blocks of rows: the second block's row wins. */
  lemma {:induction false} LatestAppend(a: seq<Row>, b: seq<Row>, d: string)
    ensures Latest(a + b, d) == if d in Dates(b) then Latest(b, d) else Latest(a, d)
    decreases |b|
  {
    DatesAppend(a, b);
    if b == [] {
      assert a + b == a;
    } else {
      var front := b[..|b| - 1];
      var last := b[|b| - 1];
      assert (a + b)[..|a + b| - 1] == a + front;
      assert b == front + [last];
      DatesAppend(front, [last]);
      LatestAppend(a, front, d);
    }
  }

  /** With unique dates, the lookup finds the one row with that date. */
  lemma {:induction false} LatestUnique(rows: seq<Row>, i: int)
    requires UniqueDates(rows)
    requires 0 <= i < |rows|
    ensures Latest(rows, rows[i].date) == Some(rows[i])
    decreases |rows|
  {
    var n := |rows| - 1;
    var front := rows[..n];
    assert rows == front + [rows[n]];
    if i < n {
      assert Dates(rows)[i] != Dates(rows)[n];
      assert UniqueDates(front) by {
        forall p, q | 0 <= p < q < |front|
          ensures Dates(front)[p] != Dates(front)[q]
        {
          assert Dates(rows)[p] != Dates(rows)[q];
        }
      }
      LatestUnique(front, i);
    }
  }
}
